=== FILE: README.md ===
# cube-parse, modelled in Dafny

cube-parse reads the STM32CubeMX database and generates three kinds of Rust
source for the STM32 HAL crates. Each generator covers one MCU family (for
example `STM32L0`):

- `features`: the Cargo feature list. It holds one `io-*` feature per GPIO IP
  version and one `eeprom-*` feature per EEPROM size. For `STM32L0` it also
  holds one feature per physical package. Last come the `mcu-<ref name>`
  aliases, each listing the features that MCU depends on.
- `pin_mappings`: one `pins! { ... }` table per GPIO IP version, each gated by
  `#[cfg(feature = "io-...")]`. A table lists every named pin with its
  alternate-function capabilities (`AF7: RxPin<USART1>`), sorted.
- `eeprom_sizes`: one `EEPROM_SIZE_BYTES` constant per EEPROM size, each
  gated by its `eeprom-*` feature.

The model covers the generator's core:

- walking the family's subfamilies and MCUs and grouping the MCU ref names
  by GPIO version, EEPROM size and package;
- the classification of a pin signal into capabilities (seven fixed
  regular expressions, the AF number taken from the signal's selector, and
  the peripheral instance taken from the signal name);
- building the pin table (last pin with a name wins, both levels sorted,
  empty pins not printed);
- the three generators with their error paths.

The model is split into modules:

| module | file | contents |
|---|---|---|
| `Base` | base.dfy | `Option`, `Result` and the error kinds; `IsEnumeration`, the iteration order of a hash map's keys |
| `Text` | text.dfy | `split`, ASCII lower-casing, decimal rendering, the `String` and `u32` orders |
| `Sorting` | sorting.dfy | stable `sort_by` (insertion sort), `dedup`, `map` |
| `Patterns` | patterns.dfy | the fixed regular expressions as sets of character shapes, with unanchored search |
| `Peripheral`, `PeripheralFacts`, `PeripheralExamples` | peripheral.dfy | the GPIO IP records, `get_af_value`, `get_name`, `get_af_modes` |
| `PinModes` | pinmodes.dfy | `render_pin_modes` |
| `Versions` | versions.dfy | `gpio_version_to_feature`, `eeprom_size_to_feature` |
| `Grouping` | grouping.dfy | family lookup and the aggregation loop of `main` |
| `Features` | features.dfy | `FEATURE_DEPENDENCIES` and `generate_features` |
| `Mappings` | mappings.dfy | `generate_pin_mappings`, `generate_eeprom_sizes` |

Four things the program takes from its environment become explicit
parameters. First, the iteration order of every `HashMap` is a sequence
that lists each key exactly once (`IsEnumeration`). The order-independence
lemmas quantify over two such orders. Second, `alphanumeric_sort::compare_str`
is an abstract comparison `cmp`. Its results are proved sorted whenever it
is a total preorder, and equal across map orders whenever it is a total
order. Third, the MCU and GPIO IP loaders are functions returning `Option`: a
failed MCU load is the error `McuLoadFailed`, a failed GPIO IP load is
`GpioLoadFailed`. The list of families is given as a value. Fourth, a
generator's output is its sequence of printed lines, each `println!`
contributing one element.

The places where the program panics are preconditions:

- `get_af_value` indexes `[1]`: `SelectorOk`;
- `get_name` indexes `[2]`: `NameOk`;
- `mcu_map.get(mcu).unwrap()`: `Grouping.Consistent`;
- `gpio_version_to_feature(gpio).unwrap()`: `VersionsOk`.

In `generate_pin_mappings` a GPIO IP file has to meet these conditions
only when the loop reaches it (`Mappings.ReachedOk`). The loop stops at the
first version that fails and never reads the later files.

Three facts about the program shape the model:

- The seven patterns use `.` for the instance character, so any character
  except a newline fits there. They are unanchored searches.
- A pin's capabilities are sorted but not deduplicated.
- A selector with fewer than two `_`-separated tokens makes `get_af_value`
  panic, which `SelectorOk` excludes.

## Model

| member | source | states |
|---|---|---|
| Text.Split | src/internal_peripheral.rs:31-37 | `split('_')` yields one piece more than there are separators, and no piece contains the separator |
| Text.JoinSplit | src/internal_peripheral.rs:35 | joining the pieces of a split with the separator gives back the original string |
| Text.SplitJoin | src/internal_peripheral.rs:35 | splitting a join of separator-free pieces gives back the pieces |
| Text.Lower | src/main.rs:214 | `to_lowercase` keeps the length, turns each upper-case ASCII letter into its lower-case letter (code point plus 32), and leaves every other character unchanged |
| Text.NatToString | src/main.rs:37 | `{}` on a number gives a non-empty string of digits with no leading zero |
| Text.ParseNatToString | src/main.rs:307 | the printed decimal of a size reads back as that size |
| Text.NatToStringInjective | src/main.rs:37 | distinct sizes print as distinct decimals |
| Text.LexTotal | src/main.rs:192 | the `String` order compares any two strings |
| Text.LexAntisymmetric | src/main.rs:192 | strings ordered both ways are equal |
| Text.LexTransitive | src/main.rs:192 | the `String` order is transitive |
| Text.LexOrder | src/main.rs:192 | the `String` order is a total order |
| Text.NatOrder | src/main.rs:202 | the `u32` order is a total order |
| Sorting.SortBy | src/main.rs:326 | `sort_by` returns a sorted permutation of its input |
| Sorting.SortStable | src/main.rs:326 | `sort_by` is stable: the elements equivalent to any given one leave in the order they came in |
| Sorting.SortedUnique | src/main.rs:331 | under a total order, two sorted permutations of the same elements are equal, so the sorted output does not depend on the input order |
| Sorting.SortIgnoresInputOrder | src/main.rs:322-331 | sorting two rearrangements of the same elements with a total order gives the same sequence |
| Sorting.SortApply | src/main.rs:322-331 | sorting values and then mapping them equals mapping them and then sorting by an order that agrees with the map; for the pin table, sorting the pin names and attaching their modes equals attaching first and sorting the entries by name |
| Sorting.ApplyPermute | src/main.rs:212-215 | mapping two rearrangements gives rearrangements of each other |
| Sorting.Dedup | src/main.rs:217 | `dedup` keeps the first element and the set of elements, leaves no two equal neighbours, and never grows |
| Sorting.DedupSnoc | src/main.rs:217 | `dedup` removes only consecutive repeats: an appended element is kept unless it equals the last input element |
| Sorting.DedupSorted | src/main.rs:216-217 | `dedup` of a sorted sequence is sorted |
| Sorting.DedupSortedDistinct | src/main.rs:216-217 | under a total order, `dedup` after `sort_by` leaves no duplicates anywhere |
| Base.EnumerationsPermute | src/main.rs:188-191 | two iteration orders of the same key set are rearrangements of each other |
| Base.EnumerationSize | src/main.rs:289 | an iteration order has as many elements as there are keys |
| Patterns.MatchesPrefixSpec | src/main.rs:234 | an anchored `^` pattern matches exactly when its shape fits at position 0 |
| Patterns.SearchSpec | src/internal_peripheral.rs:92 | an unanchored `is_match` succeeds exactly when the shape fits at some position |
| Patterns.IsMatchSpec | src/internal_peripheral.rs:63-64 | a pattern with alternatives matches exactly when one of its alternatives is found |
| Patterns.AbsentLiteral | src/internal_peripheral.rs:65-69 | a pattern requiring a character absent from the name never matches |
| Patterns.UsartLowPowerIrrelevant | src/internal_peripheral.rs:63-64 | the optional `(LP)?` never changes whether `(LP)?US?ART.` plus a suffix matches: only `UART.` or `USART.` followed by the suffix decides |
| Peripheral.AfValue | src/internal_peripheral.rs:31-37 | the AF number is one `_`-free token of the selector |
| Peripheral.AfValueSelects | src/internal_peripheral.rs:31-37 | for a selector `a_b...` the AF value is exactly the second token `b` |
| Peripheral.FirstParam | src/internal_peripheral.rs:74-77 | `find` returns the first parameter of the given name, or nothing if none has it |
| Peripheral.PinName | src/internal_peripheral.rs:73-85 | a pin has a name exactly when one of its parameters is called `GPIO_Pin`; the name is the port name followed by one `_`-free token |
| Peripheral.PinNameSelects | src/internal_peripheral.rs:73-85 | for a first `GPIO_Pin` value `a_b_c...`, the name is the port name followed by the third token `c` |
| Peripheral.InstancePrefix | src/internal_peripheral.rs:91 | the instance is the `_`-free prefix of the signal name that stops at the first `_` |
| Peripheral.MatchingRoles | src/internal_peripheral.rs:92-111 | the roles a signal gets are exactly the roles whose pattern matches, in the order the checks are written |
| Peripheral.Classify | src/internal_peripheral.rs:90-112 | a signal gets one capability per matching pattern, in check order; each carries the AF value of the selector and the instance prefix of the name |
| Peripheral.SignalModesCount | src/internal_peripheral.rs:92-111 | a signal contributes as many lines as there are patterns matching its name |
| Peripheral.AfModes | src/internal_peripheral.rs:87-116 | a pin without a signal list has no modes |
| PeripheralFacts.ModesOfAppend | src/internal_peripheral.rs:90-113 | the modes of two signal lists together are the modes of the first followed by those of the second |
| PeripheralFacts.ModesOfLength | src/internal_peripheral.rs:89-115 | a pin has as many mode lines as there are (signal, matching pattern) pairs |
| PeripheralFacts.SignalModesMembers | src/internal_peripheral.rs:92-111 | a line comes from a signal exactly when it renders a pattern matching that signal, with its AF value and instance |
| PeripheralFacts.ModesOfMembers | src/internal_peripheral.rs:89-115 | a line is among a pin's modes exactly when some signal of the pin produces it |
| PeripheralFacts.SingleRole | src/internal_peripheral.rs:92-111 | a signal matching exactly one pattern produces exactly one line, `<AF>: <Role>Pin<<instance>>` |
| PeripheralFacts.UnmatchedSignalIgnored | src/internal_peripheral.rs:92-111 | a signal no pattern matches produces nothing, and its selector is never read |
| PeripheralFacts.BusLiterals | src/internal_peripheral.rs:65-69 | the SPI patterns need a `P` and the I2C patterns need an `I` |
| PeripheralFacts.LiteralRulesOut | src/internal_peripheral.rs:65-69 | a name lacking a character that a pattern needs does not get that role |
| PeripheralExamples.UsartReceiveExample | src/internal_peripheral.rs:92-93 | `USART<n>_RX` with selector `GPIO_AF5_USART<n>` produces exactly `AF5: RxPin<USART<n>>` |
| PeripheralExamples.OnlyReceive | src/internal_peripheral.rs:63-69 | `USART<n>_RX` matches the receive pattern and no other |
| PinModes.Slot | src/main.rs:316-319 | a pin contributes an entry exactly when it has a name |
| PinModes.SlotNamed | src/main.rs:316-319 | a pin's entry carries its name and its AF modes |
| PinModes.EntryMap | src/main.rs:313-320 | the map's keys are exactly the names of the named pins, and it has no more keys than there are pins |
| PinModes.PinMap | src/main.rs:313-320 | the pin map's keys are exactly the names of the pins that have one |
| PinModes.LastPinWins | src/main.rs:318 | a name is a key exactly when some slot has it, and its value is the modes of the last slot with that name |
| PinModes.LastPinWinsOnPins | src/main.rs:315-320 | among pins sharing a name, the last pin's modes are kept |
| PinModes.LastSlotWins | src/main.rs:318 | `insert` overwrites: the last entry with a name decides its value |
| PinModes.ByNamePreorder | src/main.rs:331 | comparing pins by name with a total preorder is a total preorder |
| PinModes.Attach | src/main.rs:322-329 | each pin's modes are a sorted rearrangement of its modes in the map |
| PinModes.PinTable | src/main.rs:322-331 | the table is sorted by name and has one entry per key with distinct names; each entry holds a sorted rearrangement of its pin's modes |
| PinModes.TableFacts | src/main.rs:322-331 | any rearrangement of the attached entries lists each key once with its sorted modes |
| PinModes.TableIgnoresMapOrder | src/main.rs:322-331 | under a total order, the table is the same for every iteration order of the pin map |
| PinModes.EntryLines | src/main.rs:335-345 | an empty pin prints nothing, a pin with one mode prints one line, and a pin with `n > 1` modes prints `n + 2` lines |
| PinModes.EntryRoundTrip | src/main.rs:337-345 | reading back the printed lines of an entry recovers its modes in order |
| PinModes.Printed | src/main.rs:335-336 | the printed entries are exactly the entries with at least one mode |
| PinModes.EmptyEntriesSilent | src/main.rs:334-346 | dropping the empty entries leaves the printed body unchanged |
| PinModes.BodyAppend | src/main.rs:334-346 | the body of two tables together is the body of the first followed by that of the second |
| PinModes.RenderPinModes | src/main.rs:312-348 | the output starts with `pins! {` and ends with `}` |
| Versions.GpioVersionToFeature | src/main.rs:22-33 | a version is accepted exactly when it is `<P>_gpio_v1_0` with no `_` in `P`, and the feature is `io-<P>`; otherwise the error names the version |
| Versions.VersionFeature | src/main.rs:27-29 | every `<P>_gpio_v1_0` with `_`-free `P` maps to `io-<P>` |
| Versions.VersionFeatureInjective | src/main.rs:27-33 | two accepted versions with the same feature are the same version |
| Versions.GpioVersionAccepted | src/main.rs:357-364 | `STM32L152x8_gpio_v1_0` gives `io-STM32L152x8`, and `STM32F333_gpio_v1_0` gives `io-STM32F333` |
| Versions.GpioVersionRejected | src/main.rs:366-373 | version `v1_1`, tag `qqio` and an extra `_` are all rejected |
| Versions.EepromSizeToFeature | src/main.rs:36-38 | the feature is `eeprom-` followed by digits that read back as the size, with no leading zero |
| Versions.EepromFeatureInjective | src/main.rs:36-38 | distinct sizes give distinct features |
| Grouping.FindFamily | src/main.rs:81-85 | the first family with the requested name, or `FamilyNotFound` exactly when none has it |
| Grouping.LoadRecords | src/main.rs:110-114 | loading fails exactly when some MCU does not load, and reports the first such MCU; on success there is one record per visited MCU, in visiting order |
| Grouping.GroupInto | src/main.rs:118-121 | the grouped map's keys are exactly the keys that occur |
| Grouping.GroupIntoBuckets | src/main.rs:118-121 | a key's list holds its ref names in insertion order |
| Grouping.ListsAppend | src/main.rs:226-228 | walking keys `a + b` yields the lists of `a` followed by those of `b` |
| Grouping.ListsPermute | src/main.rs:226-228 | walking two rearrangements of the keys yields rearrangements of the same names |
| Grouping.BucketsPartition | src/main.rs:118-121 | the buckets of all keys together hold every pushed name exactly once |
| Grouping.GroupIsPartition | src/main.rs:118-121 | walking the grouped map in any iteration order yields every pushed name exactly once |
| Grouping.EepromPairs | src/main.rs:129-135 | a push happens exactly for the MCUs that have an EEPROM size |
| Grouping.EepromPairsAppend | src/main.rs:110-135 | the EEPROM pushes follow the visiting order: two runs of records push the first run's pairs, then the second's |
| Grouping.EepromPairsOne | src/main.rs:130-135 | one record pushes its (size, ref name) pair when it has a size, and nothing otherwise |
| Grouping.BucketHas | src/main.rs:118-121 | every pushed value is in the list of its own key |
| Grouping.GpioMember | src/main.rs:116-121 | every visited MCU is listed under its own GPIO version |
| Grouping.EepromMember | src/main.rs:129-135 | every visited MCU with a known EEPROM size is listed under that size |
| Grouping.McuMap | src/main.rs:137 | the MCU map's keys are exactly the visited ref names |
| Grouping.McuMapLastWins | src/main.rs:137 | for a repeated ref name, the record of the last MCU is kept |
| Grouping.PackageMap | src/main.rs:123-127 | the package map is filled only for `STM32L0`, and then holds every ref name |
| Grouping.PackageMapLastWins | src/main.rs:124-127 | the package kept for a ref name is that of the last MCU visited under it |
| Grouping.PackagesOnlyForL0 | src/main.rs:123-127 | the package map is non-empty exactly for a non-empty `STM32L0` family |
| Grouping.GroupKeys | src/main.rs:110-139 | the keys of the four maps are the ref names, GPIO versions and EEPROM sizes that occur |
| Grouping.GpioListsInOrder | src/main.rs:116-121 | each GPIO version lists its MCUs in visiting order, repeats included |
| Grouping.GpioListsPartition | src/main.rs:110-121 | the GPIO lists together hold every visited ref name exactly once per visit |
| Grouping.EepromListsInOrder | src/main.rs:129-135 | each EEPROM size lists its MCUs in visiting order |
| Grouping.BucketMembers | src/main.rs:118-121 | a name in a key's list was pushed under that key |
| Grouping.GroupConsistent | src/main.rs:110-139 | every ref name in a GPIO list is a key of the MCU map, as the `unwrap` at line 250 needs |
| Grouping.Aggregate | src/main.rs:77-139 | a missing family is reported; otherwise the step fails exactly when some visited MCU does not load; on success the maps are consistent and hold every visited ref name |
| Features.FirstTag | src/main.rs:231-238 | the static feature is that of the first rule whose pattern matches, or none when no rule matches |
| Features.L0Digit | src/main.rs:160-165 | a name matching an `STM32L0` rule has that rule's sub-line digit at position 8 |
| Features.L0Exclusive | src/main.rs:160-165 | no name matches two `STM32L0` rules |
| Features.OnlyMatch | src/main.rs:233-237 | when exactly one rule matches, its feature is taken, whatever the order |
| Features.TagIgnoresRuleOrder | src/main.rs:233 | the `STM32L0` static feature is the same for every iteration order of the rule map |
| Features.TagIgnoresFamilyRuleOrder | src/main.rs:232-238 | for any family, the static feature is the same for every rule order |
| Features.Dependencies | src/main.rs:229-252 | the dependency list is: the static feature if one matches, then the lower-cased package if any, then the IO feature, then the EEPROM feature exactly when the MCU has a size |
| Features.QuoteFoldFrom | src/main.rs:257-266 | folding from a non-empty accumulator appends `, ` and the quoted items |
| Features.QuoteFoldIsJoin | src/main.rs:257-266 | the fold is the quoted items joined by `, ` |
| Features.AliasLine | src/main.rs:254-267 | the alias line is `mcu-<ref> = [` followed by the quoted dependencies joined by `, `, then `]` |
| Features.AliasLines | src/main.rs:228-268 | one alias line per MCU of a GPIO list, in list order |
| Features.AliasMap | src/main.rs:226-269 | there are alias lines for exactly the GPIO versions |
| Features.AliasesNameMcus | src/main.rs:224-269 | the alias lines name the MCUs of the GPIO lists, one per entry, in walking order |
| Features.AliasMapRules | src/main.rs:232-238 | rule lists that always agree on the static feature give the same aliases |
| Features.AliasLinesRules | src/main.rs:228-252 | the same holds for the alias lines of one GPIO list |
| Features.AliasesUseFamilyRules | src/main.rs:232-238 | the aliases do not depend on the iteration order of the family's rule map |
| Features.IoFeatures | src/main.rs:188-191 | `collect` succeeds exactly when every version converts; it then keeps the order, and otherwise reports the first failing version |
| Features.IoSection | src/main.rs:187-197 | the IO section fails exactly when some version does not convert; otherwise it is sorted, duplicate-free, and holds exactly the features of the versions |
| Features.IoIgnoresOrder | src/main.rs:188-192 | a successful IO section is the same for every iteration order of the GPIO map |
| Features.EepromSection | src/main.rs:200-207 | the EEPROM sizes are strictly increasing and are exactly the keys of the size map |
| Features.PackageSection | src/main.rs:209-222 | the package section is present exactly when the package map is non-empty; it is sorted, has no equal neighbours, is duplicate-free under a total order, and holds exactly the lower-cased packages |
| Features.PackagesIgnoreOrder | src/main.rs:212-217 | under a total order, the package section is the same for every iteration order of the package map |
| Features.AliasSection | src/main.rs:224-270 | the aliases are sorted and are a rearrangement of the alias lines of all GPIO lists |
| Features.AliasesIgnoreOrder | src/main.rs:224-270 | the sorted aliases are the same for every iteration order of the GPIO map and the rule map |
| Features.GenerateFeatures | src/main.rs:180-282 | the generator fails exactly when some GPIO version does not convert, with that version's error; otherwise the IO section holds exactly the versions' features, the EEPROM section exactly the sizes, the package section (present exactly when the package map is not empty) exactly the lower-cased packages, and the aliases are the alias lines of all GPIO lists, sorted |
| Features.FeaturesIgnoreMapOrder | src/main.rs:180-282 | under a total order, the generated features are the same for every iteration order of all maps |
| Mappings.Table | src/main.rs:294-296 | a loaded file renders as a table starting with `pins! {` |
| Mappings.LoadedBlock | src/main.rs:293-297 | after the cfg line, a file that does not load stops the generator with `GpioLoadFailed`; one that loads prints exactly its table, then two empty lines |
| Mappings.VersionBlock | src/main.rs:291-298 | a version that does not convert stops before printing anything, whatever its file holds; otherwise its cfg line comes first; the block fails exactly when the version does not render, with `BadVersion` or `GpioLoadFailed` as `Failure` says |
| Mappings.Stream | src/main.rs:291-299 | the loop fails exactly when some block fails, and then with the error of the first failing block |
| Mappings.StreamPrefix | src/main.rs:291-299 | lines printed by earlier blocks stay printed, as a prefix of the output |
| Mappings.StreamAllLines | src/main.rs:291-299 | a run in which no block fails prints the blocks' lines one block after another |
| Mappings.StreamStopsAt | src/main.rs:291-299 | a failing run stops at its first failing block: it prints every earlier block in full, then what the failing block printed, and nothing after |
| Mappings.StreamPrints | src/main.rs:291-299 | on success every line of every block is printed |
| Mappings.Reach | src/main.rs:291-298 | the loop reaches every version up to and including the first that does not render, and no later one |
| Mappings.AllReached | src/main.rs:291-299 | a run succeeds exactly when it reaches and renders every version |
| Mappings.ReachedIgnoresUnreached | src/main.rs:291-298 | two sources that agree on the files the loop reaches give the same blocks, so unreached files never matter |
| Mappings.FirstVersionFails | src/main.rs:291-292 | a run whose first version does not convert prints nothing and reports that version, whatever the other files hold |
| Mappings.UnreachedFileIgnored | src/main.rs:291-292 | with versions `A_gpio_v1_1` and `B_gpio_v1_0`, the run stops at the first with `BadVersion` and never reads the second file |
| Mappings.GeneratePinMappings | src/main.rs:285-300 | asking well-formed files only of the versions the loop reaches, the generator succeeds exactly when every GPIO version converts and loads; otherwise it reports the `Failure` of some such version |
| Mappings.VersionOrder | src/main.rs:289-290 | the versions are visited in ascending `String` order, a rearrangement of the map's keys |
| Mappings.PinMappingsInOrder | src/main.rs:289-298 | a successful run reaches every version and prints the block of each, in ascending version order |
| Mappings.FailureAfterEarlierBlocks | src/main.rs:289-298 | a failing run stops at the `k`-th version in ascending order: it reaches exactly `k + 1` versions and prints the whole blocks of the first `k`, then what the `k`-th printed |
| Mappings.PinMappingsIgnoreOrder | src/main.rs:289-290 | every iteration order of the GPIO map gives the same sorted versions and the same output |
| Mappings.PinMappingsIgnoreUnreached | src/main.rs:289-298 | the output depends only on the files of the versions the loop reaches |
| Mappings.FirstFailureReported | src/main.rs:289-292 | the error reported is that of the least failing version in `String` order |
| Mappings.PinMappingsGates | src/main.rs:291-297 | on success every GPIO version's cfg line is printed |
| Mappings.SizeBlocks | src/main.rs:305-308 | two lines per size |
| Mappings.GenerateEepromSizes | src/main.rs:303-310 | a header line, then two lines per EEPROM size |
| Mappings.SizeBlockRoundTrip | src/main.rs:307 | the constant line of a size reads back as that size |
| Mappings.SizesRoundTrip | src/main.rs:303-310 | reading the constants back gives the sizes in map iteration order |
| Mappings.BlocksRoundTrip | src/main.rs:304-308 | reading the constants of a size list back gives the list |
| Mappings.GateMatchesConst | src/main.rs:306-307 | each constant is gated by the `eeprom-` feature of the value it declares |

## Left out

- The command-line interface (src/main.rs:40-75) and the dispatch on the generator (src/main.rs:141-151) are not modelled. A generator is called directly with the aggregated maps.
- Reading and deserialising the XML files is not modelled: `Families::load`, `Mcu::load`, `IpGPIO::load` and `load_file`. `Mcu::load` and `IpGPIO::load` are function parameters returning `Option`; their failures are `McuLoadFailed` and `GpioLoadFailed`.
- `Families::load` is not modelled at all: the family list is an input value, and its failure ("Could not load families XML", src/main.rs:78-79) has no error kind in the model.
- The `Mcu` accessors `get_ip`, `get_version` and `get_eeprom_size` (src/mcu.rs) are not part of this model. A loaded MCU is represented by its GPIO version and optional EEPROM size.
- The panic of `get_ip("GPIO").unwrap()` (src/main.rs:117) is left out: every loaded record carries a GPIO version.
- Error message texts are replaced by error kinds (`FamilyNotFound`, `McuLoadFailed`, `BadVersion`, `GpioLoadFailed`).
- `alphanumeric_sort::compare_str` is an abstract comparison `cmp`. Its numeric-aware ordering is not modelled.
- `to_lowercase` is modelled on ASCII letters only. Non-ASCII case mapping is not modelled.
- `u32` sizes are unbounded naturals. They are values read from the database and never computed with, so no wrap-around occurs.
- The comment lines, section headers and blank `println!()` separators of `generate_features` are not modelled. Neither is the `<feature> = []` wrapper around each feature name. The sections are the sequences of feature names they print.
- The regular-expression engine is not modelled. Only the fixed patterns are: each is a set of alternative character shapes, with `.` meaning any character except a newline.
- Features.IoIgnoresOrder: covers only the successful case. With several unconvertible versions, the error reported depends on the map's iteration order, as in the program.
- Features.PackageSection: promises no duplicates only when `cmp` is a total order. Under a mere preorder, `dedup` removes only equal neighbours, which is the program's own behaviour.
- PinModes.RenderPinModes: its own contract states only the framing lines. The table's content is stated by PinModes.PinTable, PinModes.EntryLines, PinModes.EntryRoundTrip and PinModes.EmptyEntriesSilent.
- Mappings.Table: states only that the table starts with `pins! {`. Its content is that of PinModes.RenderPinModes.
- Mappings.GenerateEepromSizes: its line order follows the hash map's iteration order, which the program leaves unsorted. The model takes the order as a parameter and does not state it further.

=== FILE: base.dfy ===
/** Failure-carrying wrappers and the error kinds the generator can abort with. */
module Base {

  datatype Option<+T> = None | Some(value: T)

  /** Why a generation run aborts. The source reports these as formatted
      message strings; the model keeps the offending name instead of the text. */
  datatype Error =
    | FamilyNotFound(family: string)   // no family of that name in the hierarchy
    | McuLoadFailed(mcu: string)       // the per-MCU record could not be loaded
    | BadVersion(version: string)      // a GPIO version that is not `<P>_gpio_v1_0`
    | GpioLoadFailed(version: string)  // the GPIO descriptor could not be loaded

  datatype Result<+T> = Ok(value: T) | Err(error: Error) {
    predicate IsFailure() { Err? }

    function PropagateFailure<U>(): Result<U>
      requires Err?
    {
      Err(error)
    }

    function Extract(): T
      requires Ok?
    {
      value
    }
  }

  /** `xs` lists every element of `keys` exactly once: one possible iteration
      order of a hash map whose key set is `keys`. */
  ghost predicate IsEnumeration<T>(xs: seq<T>, keys: set<T>) {
    && (forall i, j :: 0 <= i < j < |xs| ==> xs[i] != xs[j])
    && (forall i :: 0 <= i < |xs| ==> xs[i] in keys)
    && (forall x :: x in keys ==> x in xs)
  }

  /** In a sequence without repetitions every element occurs once. */
  lemma {:induction false} DistinctOccurrences<T>(xs: seq<T>, x: T)
    requires forall i, j :: 0 <= i < j < |xs| ==> xs[i] != xs[j]
    ensures multiset(xs)[x] == if x in xs then 1 else 0
  {
    if |xs| > 0 {
      assert xs == [xs[0]] + xs[1..];
      DistinctOccurrences(xs[1..], x);
      if x == xs[0] {
        assert x !in xs[1..] by {
          forall i | 0 <= i < |xs[1..]| ensures xs[1..][i] != x {
            assert xs[0] != xs[i + 1];
          }
        }
      } else {
        assert x in xs <==> x in xs[1..];
      }
    }
  }

  /** A rearrangement of a sequence without repetitions has none either. */
  lemma DistinctRearranged<T>(xs: seq<T>, ys: seq<T>)
    requires forall i, j :: 0 <= i < j < |xs| ==> xs[i] != xs[j]
    requires multiset(ys) == multiset(xs)
    ensures forall i, j :: 0 <= i < j < |ys| ==> ys[i] != ys[j]
  {
    forall i, j | 0 <= i < j < |ys| ensures ys[i] != ys[j] {
      DistinctOccurrences(xs, ys[i]);
      assert ys == ys[..j] + [ys[j]] + ys[j + 1..];
      assert ys[..j][i] == ys[i];
      assert multiset(ys)[ys[i]] >= multiset(ys[..j])[ys[i]] + multiset([ys[j]])[ys[i]];
    }
  }

  /** Two iteration orders of one key set are rearrangements of each other. */
  lemma EnumerationsPermute<T>(xs: seq<T>, ys: seq<T>, keys: set<T>)
    requires IsEnumeration(xs, keys) && IsEnumeration(ys, keys)
    ensures multiset(xs) == multiset(ys)
  {
    forall x ensures multiset(xs)[x] == multiset(ys)[x] {
      DistinctOccurrences(xs, x);
      DistinctOccurrences(ys, x);
    }
  }

  /** An enumeration has as many elements as its key set. */
  lemma {:induction false} EnumerationSize<T>(xs: seq<T>, keys: set<T>)
    requires IsEnumeration(xs, keys)
    ensures |xs| == |keys|
  {
    if |xs| == 0 {
      assert keys == {};
    } else {
      var last := xs[|xs| - 1];
      var init := xs[..|xs| - 1];
      assert last !in init;
      assert forall x :: x in keys - {last} ==> x in init by {
        forall x | x in keys - {last} ensures x in init {
          var k :| 0 <= k < |xs| && xs[k] == x;
          assert k < |xs| - 1;
          assert init[k] == x;
        }
      }
      EnumerationSize(init, keys - {last});
    }
  }

  /** Taking the first element of `xs` out of its rearrangement `ys` leaves
      a rearrangement of the rest. */
  lemma RemoveAt<T>(xs: seq<T>, ys: seq<T>, k: int)
    requires multiset(xs) == multiset(ys)
    requires |xs| > 0 && 0 <= k < |ys| && ys[k] == xs[0]
    ensures multiset(ys[..k] + ys[k + 1..]) == multiset(xs[1..])
  {
    assert ys == ys[..k] + [ys[k]] + ys[k + 1..];
    assert xs == [xs[0]] + xs[1..];
    forall y ensures multiset(ys[..k] + ys[k + 1..])[y] == multiset(xs[1..])[y] {
      assert multiset(ys)[y] == multiset(ys[..k] + ys[k + 1..])[y] + multiset([ys[k]])[y];
    }
  }
}

=== FILE: features.dfy ===
/** `generate_features`: the Cargo feature list of a family. Output is kept
    as four sections of declaration lines (the comment and blank lines
    between them are not modelled). */
module Features {
  import opened Base
  import opened Text
  import opened Sorting
  import opened Patterns
  import opened Versions
  import opened Grouping

  // ---------------------------------------------------------------------
  // Static feature dependencies

  /** A static rule: MCU ref names matching the anchored pattern depend on
      the feature. */
  datatype Rule = Rule(pattern: seq<Atom>, feature: string)

  /** The only family with static rules. */
  const RuleFamily: string := "STM32L0"

  /** `^STM32L0.1`, `^STM32L0.2` and `^STM32L0.3`, to the sub-line features. */
  const L0Rules: seq<Rule> := [
    Rule(Shape("STM32L0.1"), "stm32l0x1"),
    Rule(Shape("STM32L0.2"), "stm32l0x2"),
    Rule(Shape("STM32L0.3"), "stm32l0x3")
  ]

  function FamilyRules(family: string): seq<Rule> {
    if family == RuleFamily then L0Rules else []
  }

  /** The `^` anchor: the shape must match at the start of the name. */
  predicate RuleMatches(r: Rule, mcu: string) {
    MatchesPrefix(mcu, r.pattern)
  }

  /** The loop over the rules with `break`: the feature of the first rule
      that matches, in the rules' iteration order. */
  function FirstTag(rules: seq<Rule>, mcu: string): (r: Option<string>)
    ensures r.None? <==> forall k :: 0 <= k < |rules| ==> !RuleMatches(rules[k], mcu)
    ensures r.Some? ==> exists k :: 0 <= k < |rules| && RuleMatches(rules[k], mcu) && rules[k].feature == r.value
                                    && forall j :: 0 <= j < k ==> !RuleMatches(rules[j], mcu)
  {
    if |rules| == 0 then None
    else if RuleMatches(rules[0], mcu) then Some(rules[0].feature)
    else
      var r := FirstTag(rules[1..], mcu);
      if r.Some? then
        var k :| 0 <= k < |rules[1..]| && RuleMatches(rules[1..][k], mcu) && rules[1..][k].feature == r.value
                 && forall j :: 0 <= j < k ==> !RuleMatches(rules[1..][j], mcu);
        assert RuleMatches(rules[k + 1], mcu);
        r
      else r
  }

  /** A matching L0 rule fixes the ninth character of the name. */
  lemma L0Digit(mcu: string, k: int)
    requires 0 <= k < 3 && RuleMatches(L0Rules[k], mcu)
    ensures |mcu| > 8 && mcu[8] == L0Rules[k].feature[8]
  {
    var p := L0Rules[k].pattern;
    MatchesPrefixSpec(mcu, p);
    assert AtomMatches(p[8], mcu[8]);
  }

  /** The three L0 patterns are mutually exclusive. */
  lemma L0Exclusive(mcu: string)
    ensures forall a, b :: a in L0Rules && b in L0Rules && RuleMatches(a, mcu) && RuleMatches(b, mcu) ==> a == b
  {
    forall a, b | a in L0Rules && b in L0Rules && RuleMatches(a, mcu) && RuleMatches(b, mcu) ensures a == b {
      var i :| 0 <= i < 3 && L0Rules[i] == a;
      var j :| 0 <= j < 3 && L0Rules[j] == b;
      L0Digit(mcu, i);
      L0Digit(mcu, j);
    }
  }

  /** When at most one rule can match, the first match is the match. */
  lemma {:induction false} OnlyMatch(rules: seq<Rule>, mcu: string, r: Rule)
    requires r in rules && RuleMatches(r, mcu)
    requires forall a :: a in rules && RuleMatches(a, mcu) ==> a == r
    ensures FirstTag(rules, mcu) == Some(r.feature)
  {
    if rules[0] != r {
      assert r in rules[1..];
      OnlyMatch(rules[1..], mcu, r);
    }
  }

  /** The hash map of rules may be iterated in any order: the tag is the
      same, because the patterns are exclusive. */
  lemma TagIgnoresRuleOrder(order: seq<Rule>, mcu: string)
    requires forall r :: r in order <==> r in L0Rules
    ensures FirstTag(order, mcu) == FirstTag(L0Rules, mcu)
  {
    L0Exclusive(mcu);
    if r :| r in L0Rules && RuleMatches(r, mcu) {
      OnlyMatch(order, mcu, r);
      OnlyMatch(L0Rules, mcu, r);
    } else {
      assert forall k :: 0 <= k < |order| ==> order[k] in L0Rules;
    }
  }

  // ---------------------------------------------------------------------
  // Dependencies of one MCU alias

  function OptionList(o: Option<string>): (r: seq<string>)
    ensures |r| <= 1
  {
    match o
    case None => []
    case Some(x) => [x]
  }

  /** The EEPROM feature of the MCU, if its size is known. */
  function EepromFeature(d: McuData): Option<string> {
    match d.eepromSize
    case None => None
    case Some(s) => Some(EepromSizeToFeature(s))
  }

  /** The package feature of the MCU, lower-cased, if it has a package. */
  function PackageFeature(g: Groups, mcu: string): Option<string> {
    if mcu in g.packages then Some(Lower(g.packages[mcu])) else None
  }

  /** The dependency list of one alias: the static tag if a rule matches,
      then the lower-cased package if the MCU has one, then the GPIO version
      feature, and the EEPROM feature last exactly when the size is known. */
  function Dependencies(mcu: string, io: string, g: Groups, rules: seq<Rule>): (deps: seq<string>)
    requires mcu in g.mcus
    ensures var i := (if FirstTag(rules, mcu).Some? then 1 else 0) + (if mcu in g.packages then 1 else 0);
            && i < |deps| && deps[i] == io
            && (FirstTag(rules, mcu).Some? ==> deps[0] == FirstTag(rules, mcu).value)
            && (mcu in g.packages ==> deps[i - 1] == Lower(g.packages[mcu]))
            && (g.mcus[mcu].eepromSize.Some? <==> |deps| == i + 2)
            && (g.mcus[mcu].eepromSize.None? <==> |deps| == i + 1)
            && (g.mcus[mcu].eepromSize.Some? ==> deps[i + 1] == EepromSizeToFeature(g.mcus[mcu].eepromSize.value))
  {
    OptionList(FirstTag(rules, mcu))
      + OptionList(PackageFeature(g, mcu))
      + [io]
      + OptionList(EepromFeature(g.mcus[mcu]))
  }

  // ---------------------------------------------------------------------
  // Alias lines

  function Quote(x: string): string {
    "\"" + x + "\""
  }

  /** The quoting fold of the alias loop: each value is quoted and appended,
      after `, ` unless the accumulator is still empty. */
  function QuoteFold(acc: string, xs: seq<string>): string
    decreases |xs|
  {
    if |xs| == 0 then acc
    else QuoteFold((if |acc| > 0 then acc + ", " else acc) + Quote(xs[0]), xs[1..])
  }

  /** Reference definition: the parts joined by a separator. */
  function JoinWith(parts: seq<string>, sep: string): string {
    if |parts| == 0 then ""
    else if |parts| == 1 then parts[0]
    else parts[0] + sep + JoinWith(parts[1..], sep)
  }

  lemma {:induction false} QuoteFoldFrom(acc: string, xs: seq<string>)
    requires |acc| > 0
    ensures QuoteFold(acc, xs) == acc + (if |xs| == 0 then "" else ", " + JoinWith(Apply(Quote, xs), ", "))
    decreases |xs|
  {
    if |xs| > 0 {
      var next := acc + ", " + Quote(xs[0]);
      QuoteFoldFrom(next, xs[1..]);
      assert Apply(Quote, xs)[1..] == Apply(Quote, xs[1..]);
    }
  }

  /** The fold produces the quoted values separated by `, `. */
  lemma QuoteFoldIsJoin(xs: seq<string>)
    ensures QuoteFold("", xs) == JoinWith(Apply(Quote, xs), ", ")
  {
    if |xs| > 0 {
      QuoteFoldFrom(Quote(xs[0]), xs[1..]);
      assert Apply(Quote, xs)[1..] == Apply(Quote, xs[1..]);
      assert "" + Quote(xs[0]) == Quote(xs[0]);
    }
  }

  /** `mcu-<ref name> = [<quoted dependencies>]`. */
  function AliasLine(mcu: string, deps: seq<string>): (line: string)
    ensures |line| > 4 + |mcu| && line[..4] == "mcu-" && line[4..4 + |mcu|] == mcu
    ensures line == "mcu-" + mcu + " = [" + JoinWith(Apply(Quote, deps), ", ") + "]"
  {
    var line := "mcu-" + mcu + " = [" + QuoteFold("", deps) + "]";
    assert line == "mcu-" + (mcu + " = [" + QuoteFold("", deps) + "]");
    QuoteFoldIsJoin(deps);
    line
  }

  /** The alias lines of the MCUs of one GPIO version, in list order. */
  function AliasLines(mcus: seq<string>, io: string, g: Groups, rules: seq<Rule>): (r: seq<string>)
    requires forall i :: 0 <= i < |mcus| ==> mcus[i] in g.mcus
    ensures |r| == |mcus|
    ensures forall i :: 0 <= i < |mcus| ==> r[i] == AliasLine(mcus[i], Dependencies(mcus[i], io, g, rules))
  {
    if |mcus| == 0 then []
    else [AliasLine(mcus[0], Dependencies(mcus[0], io, g, rules))] + AliasLines(mcus[1..], io, g, rules)
  }

  // ---------------------------------------------------------------------
  // The generator

  /** Every GPIO version of the map converts to a feature. */
  ghost predicate VersionsOk(g: Groups) {
    forall v :: v in g.gpio ==> GpioVersionToFeature(v).Ok?
  }

  /** The alias lines of every GPIO version, keyed like the GPIO map. */
  function AliasMap(g: Groups, rules: seq<Rule>): (m: map<string, seq<string>>)
    requires Consistent(g) && VersionsOk(g)
    ensures m.Keys == g.gpio.Keys
  {
    map v | v in g.gpio :: AliasLines(g.gpio[v], GpioVersionToFeature(v).value, g, rules)
  }

  /** The alias loop: the versions in the iteration order `order` of the
      GPIO map, and within each version its MCUs in list order. */
  function Aliases(g: Groups, rules: seq<Rule>, order: seq<string>): (r: seq<string>)
    requires Consistent(g) && VersionsOk(g)
    requires forall i :: 0 <= i < |order| ==> order[i] in g.gpio
  {
    Lists(AliasMap(g, rules), order)
  }

  /** Each line is the alias of the MCU at the same position. */
  predicate NamesMcus(lines: seq<string>, mcus: seq<string>) {
    && |lines| == |mcus|
    && forall i :: 0 <= i < |mcus| ==> |lines[i]| > 4 + |mcus[i]| && lines[i][4..4 + |mcus[i]|] == mcus[i]
  }

  lemma NamesAppend(a: seq<string>, b: seq<string>, c: seq<string>, d: seq<string>)
    requires NamesMcus(a, b) && NamesMcus(c, d)
    ensures NamesMcus(a + c, b + d)
  {
    forall i | 0 <= i < |b + d|
      ensures |(a + c)[i]| > 4 + |(b + d)[i]| && (a + c)[i][4..4 + |(b + d)[i]|] == (b + d)[i]
    {
      if i >= |b| {
        assert (a + c)[i] == c[i - |b|] && (b + d)[i] == d[i - |b|];
      }
    }
  }

  /** One alias line per MCU occurrence: the lines name the MCUs of the
      versions, one after another. */
  lemma {:induction false} AliasesNameMcus(g: Groups, rules: seq<Rule>, order: seq<string>)
    requires Consistent(g) && VersionsOk(g)
    requires forall i :: 0 <= i < |order| ==> order[i] in g.gpio
    ensures NamesMcus(Aliases(g, rules, order), Lists(g.gpio, order))
  {
    if |order| > 0 {
      var v := order[0];
      AliasesNameMcus(g, rules, order[1..]);
      var here := AliasMap(g, rules)[v];
      assert NamesMcus(here, g.gpio[v]);
      NamesAppend(here, g.gpio[v], Aliases(g, rules, order[1..]), Lists(g.gpio, order[1..]));
    }
  }

  /** The static rules are consulted only through the first match, so any
      iteration order of the family's rules gives the same tags. */
  lemma TagIgnoresFamilyRuleOrder(family: string, rules: seq<Rule>, mcu: string)
    requires forall r :: r in rules <==> r in FamilyRules(family)
    ensures FirstTag(rules, mcu) == FirstTag(FamilyRules(family), mcu)
  {
    if family == RuleFamily {
      TagIgnoresRuleOrder(rules, mcu);
    } else {
      assert forall k :: 0 <= k < |rules| ==> rules[k] in FamilyRules(family);
    }
  }

  lemma AliasMapRules(g: Groups, r1: seq<Rule>, r2: seq<Rule>)
    requires Consistent(g) && VersionsOk(g)
    requires forall mcu :: FirstTag(r1, mcu) == FirstTag(r2, mcu)
    ensures AliasMap(g, r1) == AliasMap(g, r2)
  {
    forall v | v in g.gpio ensures AliasMap(g, r1)[v] == AliasMap(g, r2)[v] {
      AliasLinesRules(g.gpio[v], GpioVersionToFeature(v).value, g, r1, r2);
    }
  }

  lemma AliasLinesRules(mcus: seq<string>, io: string, g: Groups, r1: seq<Rule>, r2: seq<Rule>)
    requires forall i :: 0 <= i < |mcus| ==> mcus[i] in g.mcus
    requires forall mcu :: FirstTag(r1, mcu) == FirstTag(r2, mcu)
    ensures AliasLines(mcus, io, g, r1) == AliasLines(mcus, io, g, r2)
  {
    forall i | 0 <= i < |mcus| ensures Dependencies(mcus[i], io, g, r1) == Dependencies(mcus[i], io, g, r2) {
      assert FirstTag(r1, mcus[i]) == FirstTag(r2, mcus[i]);
    }
  }

  /** `collect::<Result<Vec<_>, _>>()` over the conversions of the versions in
      iteration order: stops at the first failure. */
  function IoFeatures(order: seq<string>): (r: Result<seq<string>>)
    ensures r.Ok? <==> forall i :: 0 <= i < |order| ==> GpioVersionToFeature(order[i]).Ok?
    ensures r.Ok? ==> |r.value| == |order|
                      && forall i :: 0 <= i < |order| ==> r.value[i] == GpioVersionToFeature(order[i]).value
    ensures r.Err? ==> exists k :: 0 <= k < |order| && GpioVersionToFeature(order[k]) == Err(r.error)
                                   && forall j :: 0 <= j < k ==> GpioVersionToFeature(order[j]).Ok?
  {
    if |order| == 0 then Ok([])
    else
      var f :- GpioVersionToFeature(order[0]);
      var rest := IoFeatures(order[1..]);
      if rest.Err? then
        var k :| 0 <= k < |order[1..]| && GpioVersionToFeature(order[1..][k]) == Err(rest.error)
                 && forall j :: 0 <= j < k ==> GpioVersionToFeature(order[1..][j]).Ok?;
        assert GpioVersionToFeature(order[k + 1]) == Err(rest.error);
        Err(rest.error)
      else
        Ok([f] + rest.value)
  }

  /** The feature of a version known to convert. */
  function IoFeature(v: string): string {
    var r := GpioVersionToFeature(v);
    if r.Ok? then r.value else ""
  }

  /** The IO section: the features of all GPIO versions, sorted. Fails when
      a version does not convert, with the error of the first such version
      in iteration order; otherwise holds every feature once, in
      lexicographic order. */
  function IoSection(gpio: map<string, seq<string>>, order: seq<string>): (r: Result<seq<string>>)
    requires IsEnumeration(order, gpio.Keys)
    ensures r.Err? <==> exists v :: v in gpio && GpioVersionToFeature(v).Err?
    ensures r.Err? ==> exists v :: v in gpio && GpioVersionToFeature(v) == Err(r.error)
    ensures r.Ok? ==> Sorted(r.value, LexLe)
    ensures r.Ok? ==> forall i, j :: 0 <= i < j < |r.value| ==> r.value[i] != r.value[j]
    ensures r.Ok? ==> forall x :: x in r.value <==> exists v :: v in gpio && GpioVersionToFeature(v) == Ok(x)
  {
    var features := IoFeatures(order);
    if features.Err? then
      Err(features.error)
    else
      LexOrder();
      var io := SortBy(features.value, LexLe);
      IoFacts(gpio, order, features.value, io);
      Ok(io)
  }

  lemma IoFacts(gpio: map<string, seq<string>>, order: seq<string>, features: seq<string>, io: seq<string>)
    requires IsEnumeration(order, gpio.Keys)
    requires IoFeatures(order) == Ok(features)
    requires multiset(io) == multiset(features)
    ensures forall i, j :: 0 <= i < j < |io| ==> io[i] != io[j]
    ensures forall x :: x in io <==> exists v :: v in gpio && GpioVersionToFeature(v) == Ok(x)
  {
    FeaturesDistinct(gpio, order, features);
    DistinctRearranged(features, io);
    assert forall i :: 0 <= i < |order| ==> GpioVersionToFeature(order[i]) == Ok(features[i]);
    forall x ensures x in io <==> exists v :: v in gpio && GpioVersionToFeature(v) == Ok(x) {
      assert x in io <==> x in multiset(features);
      IoMember(gpio, order, features, x);
    }
  }

  lemma IoMember(gpio: map<string, seq<string>>, order: seq<string>, features: seq<string>, x: string)
    requires IsEnumeration(order, gpio.Keys)
    requires |features| == |order|
    requires forall i :: 0 <= i < |order| ==> GpioVersionToFeature(order[i]) == Ok(features[i])
    ensures x in features <==> exists v :: v in gpio && GpioVersionToFeature(v) == Ok(x)
  {
    if x in features {
      var i :| 0 <= i < |features| && features[i] == x;
      assert order[i] in gpio;
    }
    if v :| v in gpio && GpioVersionToFeature(v) == Ok(x) {
      var i :| 0 <= i < |order| && order[i] == v;
      assert features[i] == x;
    }
  }

  /** Distinct versions have distinct features. */
  lemma FeaturesDistinct(gpio: map<string, seq<string>>, order: seq<string>, features: seq<string>)
    requires IsEnumeration(order, gpio.Keys)
    requires IoFeatures(order) == Ok(features)
    ensures forall i, j :: 0 <= i < j < |features| ==> features[i] != features[j]
  {
    forall i, j | 0 <= i < j < |features| ensures features[i] != features[j] {
      if features[i] == features[j] {
        VersionFeatureInjective(order[i], order[j]);
      }
    }
  }

  /** The EEPROM section: every known size once, in increasing order. */
  function EepromSection(eeprom: map<nat, seq<string>>, order: seq<nat>): (r: seq<nat>)
    requires IsEnumeration(order, eeprom.Keys)
    ensures forall i, j :: 0 <= i < j < |r| ==> r[i] < r[j]
    ensures forall s :: s in r <==> s in eeprom
  {
    NatOrder();
    var sizes := SortBy(order, NatLe);
    DistinctRearranged(order, sizes);
    assert forall s :: s in sizes <==> s in multiset(order);
    sizes
  }

  /** The lower-cased package of an MCU of the package map. */
  function LowerPackage(packages: map<string, string>): string -> string {
    (mcu: string) => if mcu in packages then Lower(packages[mcu]) else ""
  }

  /** The package section, printed only when the package map is not empty:
      exactly the lower-cased packages, ordered by `cmp` (`compare_str`,
      kept abstract), with no value twice in a row; under a total order no
      value repeats at all. */
  function PackageSection(packages: map<string, string>, order: seq<string>, cmp: (string, string) -> bool): (r: Option<seq<string>>)
    requires IsEnumeration(order, packages.Keys)
    requires TotalPreorder(cmp)
    ensures r.Some? <==> packages != map[]
    ensures r.Some? ==> Sorted(r.value, cmp)
    ensures r.Some? ==> forall i :: 0 <= i < |r.value| - 1 ==> r.value[i] != r.value[i + 1]
    ensures r.Some? && TotalOrder(cmp) ==> forall i, j :: 0 <= i < j < |r.value| ==> r.value[i] != r.value[j]
    ensures r.Some? ==> forall x :: x in r.value <==> exists mcu :: mcu in packages && x == Lower(packages[mcu])
  {
    if packages == map[] then None
    else
      var lowered := Apply(LowerPackage(packages), order);
      var sorted := SortBy(lowered, cmp);
      DedupSorted(sorted, cmp);
      DedupUnderOrder(sorted, cmp);
      PackageFacts(packages, order, lowered, Dedup(sorted));
      Some(Dedup(sorted))
  }

  lemma DedupUnderOrder(sorted: seq<string>, cmp: (string, string) -> bool)
    requires Sorted(sorted, cmp)
    ensures TotalOrder(cmp) ==> forall i, j :: 0 <= i < j < |Dedup(sorted)| ==> Dedup(sorted)[i] != Dedup(sorted)[j]
  {
    if TotalOrder(cmp) {
      DedupSortedDistinct(sorted, cmp);
    }
  }

  lemma PackageFacts(packages: map<string, string>, order: seq<string>, lowered: seq<string>, p: seq<string>)
    requires IsEnumeration(order, packages.Keys)
    requires lowered == Apply(LowerPackage(packages), order)
    requires forall x :: x in p <==> x in multiset(lowered)
    ensures forall x :: x in p <==> exists mcu :: mcu in packages && x == Lower(packages[mcu])
  {
    forall x ensures x in p <==> exists mcu :: mcu in packages && x == Lower(packages[mcu]) {
      if x in lowered {
        var i :| 0 <= i < |lowered| && lowered[i] == x;
        assert order[i] in packages;
      }
      if mcu :| mcu in packages && x == Lower(packages[mcu]) {
        var i :| 0 <= i < |order| && order[i] == mcu;
        assert lowered[i] == x;
      }
    }
  }

  /** The alias section: the alias lines of the loop, sorted; one line per
      MCU occurrence of the GPIO lists. */
  function AliasSection(g: Groups, rules: seq<Rule>, order: seq<string>): (r: seq<string>)
    requires Consistent(g) && VersionsOk(g)
    requires IsEnumeration(order, g.gpio.Keys)
    ensures Sorted(r, LexLe)
    ensures multiset(r) == multiset(Aliases(g, rules, order))
    ensures |r| == |Lists(g.gpio, order)|
  {
    LexOrder();
    AliasesNameMcus(g, rules, order);
    var r := SortBy(Aliases(g, rules, order), LexLe);
    assert |r| == |multiset(r)| == |Aliases(g, rules, order)|;
    r
  }

  /** The four sections: `io` and `packages` hold feature names and
      `eeprom` the sizes, each printed as `<feature> = []` (sizes as
      `eeprom-<size>`); `aliases` holds the alias lines. */
  datatype FeatureSections = FeatureSections(
    io: seq<string>,
    eeprom: seq<nat>,
    packages: Option<seq<string>>,
    aliases: seq<string>)

  /** The hash-map iteration orders the generator sees, one per map. */
  datatype MapOrders = MapOrders(
    gpio: seq<string>,     // keys of the GPIO map
    eeprom: seq<nat>,      // keys of the EEPROM map
    packages: seq<string>, // keys of the package map, whose values are read
    rules: seq<Rule>)      // the static rules of the family

  ghost predicate OrdersOf(o: MapOrders, g: Groups, family: string) {
    && IsEnumeration(o.gpio, g.gpio.Keys)
    && IsEnumeration(o.eeprom, g.eeprom.Keys)
    && IsEnumeration(o.packages, g.packages.Keys)
    && (forall r :: r in o.rules <==> r in FamilyRules(family))
  }

  /** `generate_features`: the four sections, or the error of the IO
      section. */
  function GenerateFeatures(g: Groups, family: string, o: MapOrders, cmp: (string, string) -> bool): (r: Result<FeatureSections>)
    requires Consistent(g) && OrdersOf(o, g, family)
    requires TotalPreorder(cmp)
    ensures r.Err? <==> !VersionsOk(g)
    ensures r.Err? ==> exists v :: v in g.gpio && GpioVersionToFeature(v) == Err(r.error)
    ensures r.Ok? ==> forall x :: x in r.value.io <==> exists v :: v in g.gpio && GpioVersionToFeature(v) == Ok(x)
    ensures r.Ok? ==> forall s :: s in r.value.eeprom <==> s in g.eeprom
    ensures r.Ok? ==> (r.value.packages.Some? <==> g.packages != map[])
    ensures r.Ok? && r.value.packages.Some? ==>
              forall x :: x in r.value.packages.value <==> exists mcu :: mcu in g.packages && x == Lower(g.packages[mcu])
    ensures r.Ok? ==> Sorted(r.value.aliases, LexLe) && |r.value.aliases| == |Lists(g.gpio, o.gpio)|
    ensures r.Ok? ==> multiset(r.value.aliases) == multiset(Aliases(g, o.rules, o.gpio))
  {
    var io :- IoSection(g.gpio, o.gpio);
    Ok(FeatureSections(
      io,
      EepromSection(g.eeprom, o.eeprom),
      PackageSection(g.packages, o.packages, cmp),
      AliasSection(g, o.rules, o.gpio)))
  }

  /** The static rules are iterated in any order, so the alias lines are
      those of the family's rules in their listed order. */
  lemma AliasesUseFamilyRules(g: Groups, family: string, rules: seq<Rule>, order: seq<string>)
    requires Consistent(g) && VersionsOk(g)
    requires forall i :: 0 <= i < |order| ==> order[i] in g.gpio
    requires forall r :: r in rules <==> r in FamilyRules(family)
    ensures Aliases(g, rules, order) == Aliases(g, FamilyRules(family), order)
  {
    forall mcu ensures FirstTag(rules, mcu) == FirstTag(FamilyRules(family), mcu) {
      TagIgnoresFamilyRuleOrder(family, rules, mcu);
    }
    AliasMapRules(g, rules, FamilyRules(family));
  }

  lemma IoIgnoresOrder(gpio: map<string, seq<string>>, o1: seq<string>, o2: seq<string>)
    requires IsEnumeration(o1, gpio.Keys) && IsEnumeration(o2, gpio.Keys)
    ensures IoSection(gpio, o1).Ok? ==> IoSection(gpio, o1) == IoSection(gpio, o2)
  {
    if IoSection(gpio, o1).Ok? {
      assert IoSection(gpio, o2).Ok?;
      LexOrder();
      var f1 := IoFeaturesApply(o1);
      var f2 := IoFeaturesApply(o2);
      EnumerationsPermute(o1, o2, gpio.Keys);
      ApplyPermute(IoFeature, o1, o2);
      SortIgnoresInputOrder(f1, f2, LexLe);
    }
  }

  lemma IoFeaturesApply(order: seq<string>) returns (features: seq<string>)
    requires IoFeatures(order).Ok?
    ensures IoFeatures(order) == Ok(features) && features == Apply(IoFeature, order)
  {
    features := IoFeatures(order).value;
  }

  lemma PackagesIgnoreOrder(packages: map<string, string>, o1: seq<string>, o2: seq<string>, cmp: (string, string) -> bool)
    requires IsEnumeration(o1, packages.Keys) && IsEnumeration(o2, packages.Keys)
    requires TotalOrder(cmp)
    ensures PackageSection(packages, o1, cmp) == PackageSection(packages, o2, cmp)
  {
    EnumerationsPermute(o1, o2, packages.Keys);
    ApplyPermute(LowerPackage(packages), o1, o2);
    SortIgnoresInputOrder(Apply(LowerPackage(packages), o1), Apply(LowerPackage(packages), o2), cmp);
  }

  lemma AliasesIgnoreOrder(g: Groups, family: string, o1: MapOrders, o2: MapOrders)
    requires Consistent(g) && VersionsOk(g)
    requires OrdersOf(o1, g, family) && OrdersOf(o2, g, family)
    ensures AliasSection(g, o1.rules, o1.gpio) == AliasSection(g, o2.rules, o2.gpio)
  {
    LexOrder();
    AliasesUseFamilyRules(g, family, o1.rules, o1.gpio);
    AliasesUseFamilyRules(g, family, o2.rules, o2.gpio);
    EnumerationsPermute(o1.gpio, o2.gpio, g.gpio.Keys);
    ListsPermute(AliasMap(g, FamilyRules(family)), o1.gpio, o2.gpio);
    SortIgnoresInputOrder(Aliases(g, o1.rules, o1.gpio), Aliases(g, o2.rules, o2.gpio), LexLe);
  }

  /** Under a total order on packages the whole output is independent of the
      hash-map iteration orders, as long as every version converts. */
  lemma FeaturesIgnoreMapOrder(g: Groups, family: string, o1: MapOrders, o2: MapOrders, cmp: (string, string) -> bool)
    requires Consistent(g) && OrdersOf(o1, g, family) && OrdersOf(o2, g, family)
    requires TotalOrder(cmp)
    requires VersionsOk(g)
    ensures GenerateFeatures(g, family, o1, cmp) == GenerateFeatures(g, family, o2, cmp)
  {
    IoIgnoresOrder(g.gpio, o1.gpio, o2.gpio);
    NatOrder();
    EnumerationsPermute(o1.eeprom, o2.eeprom, g.eeprom.Keys);
    SortIgnoresInputOrder(o1.eeprom, o2.eeprom, NatLe);
    PackagesIgnoreOrder(g.packages, o1.packages, o2.packages, cmp);
    AliasesIgnoreOrder(g, family, o1, o2);
  }
}

=== FILE: grouping.dfy ===
/** The aggregation loop of the generator: the family hierarchy is walked
    subfamily by subfamily and MCU by MCU, each MCU's record is loaded, and
    four maps are filled from the loaded records. */
module Grouping {
  import opened Base

  // ---------------------------------------------------------------------
  // Input records

  /** One `Mcu` element of the family file. */
  datatype McuRef = McuRef(name: string, packageName: string, refName: string)

  datatype SubFamily = SubFamily(name: string, mcus: seq<McuRef>)

  datatype Family = Family(name: string, subFamilies: seq<SubFamily>)

  /** What the generator reads from a loaded MCU record: the version of its
      `GPIO` IP and its EEPROM size, if it has one. */
  datatype McuData = McuData(gpioVersion: string, eepromSize: Option<nat>)

  /** A visited MCU with its loaded record. */
  datatype McuRecord = McuRecord(refName: string, packageName: string, data: McuData)

  /** No family before index `k` has the name. */
  predicate FirstNamed(families: seq<Family>, name: string, k: int) {
    forall j :: 0 <= j < k && j < |families| ==> families[j].name != name
  }

  /** The first family of the given name. */
  function FindFamily(families: seq<Family>, name: string): (r: Result<Family>)
    ensures r.Err? <==> forall k :: 0 <= k < |families| ==> families[k].name != name
    ensures r.Err? ==> r.error == FamilyNotFound(name)
    ensures r.Ok? ==> exists k :: 0 <= k < |families| && families[k] == r.value && FirstNamed(families, name, k)
    ensures r.Ok? ==> r.value.name == name
  {
    if |families| == 0 then Err(FamilyNotFound(name))
    else if families[0].name == name then Ok(families[0])
    else
      var r := FindFamily(families[1..], name);
      if r.Ok? then
        var k :| 0 <= k < |families[1..]| && families[1..][k] == r.value && FirstNamed(families[1..], name, k);
        assert families[k + 1] == r.value && FirstNamed(families, name, k + 1);
        r
      else r
  }

  /** The MCUs of a family in visiting order: subfamily by subfamily. */
  function Visit(sfs: seq<SubFamily>): (r: seq<McuRef>)
    ensures |sfs| > 0 ==> r == sfs[0].mcus + Visit(sfs[1..])
  {
    if |sfs| == 0 then [] else sfs[0].mcus + Visit(sfs[1..])
  }

  /** `k` is the first MCU whose record cannot be loaded. */
  predicate FirstFailure(mcus: seq<McuRef>, load: string -> Option<McuData>, k: int) {
    && 0 <= k < |mcus|
    && load(mcus[k].name).None?
    && forall j :: 0 <= j < k ==> load(mcus[j].name).Some?
  }

  /** Loads the record of every visited MCU, by its `name`; the first MCU
      whose record cannot be loaded aborts the run. */
  function LoadRecords(mcus: seq<McuRef>, load: string -> Option<McuData>): (r: Result<seq<McuRecord>>)
    ensures r.Err? <==> exists k :: 0 <= k < |mcus| && load(mcus[k].name).None?
    ensures r.Err? ==> exists k :: FirstFailure(mcus, load, k) && r.error == McuLoadFailed(mcus[k].name)
    ensures r.Ok? ==> |r.value| == |mcus|
    ensures r.Ok? ==> forall k :: 0 <= k < |mcus| ==>
                        r.value[k] == McuRecord(mcus[k].refName, mcus[k].packageName, load(mcus[k].name).value)
  {
    if |mcus| == 0 then Ok([])
    else
      match load(mcus[0].name)
      case None => Err(McuLoadFailed(mcus[0].name))
      case Some(d) =>
        var rest := LoadRecords(mcus[1..], load);
        if rest.Err? then
          var k :| FirstFailure(mcus[1..], load, k) && rest.error == McuLoadFailed(mcus[1..][k].name);
          assert FirstFailure(mcus, load, k + 1);
          rest
        else
          assert forall k :: 1 <= k < |mcus| ==> mcus[k] == mcus[1..][k - 1];
          Ok([McuRecord(mcus[0].refName, mcus[0].packageName, d)] + rest.value)
  }

  // ---------------------------------------------------------------------
  // Grouping by key

  /** The values of the pairs whose key is `k`, in order. */
  function Bucket<K(==,!new)>(pairs: seq<(K, string)>, k: K): (r: seq<string>)
    ensures |r| <= |pairs|
  {
    if |pairs| == 0 then []
    else
      var last := pairs[|pairs| - 1];
      Bucket(pairs[..|pairs| - 1], k) + (if last.0 == k then [last.1] else [])
  }

  /** The `entry(key).or_insert(vec![]).push(value)` loop: one list per key
      that occurs, filled in encounter order. */
  function GroupInto<K(==,!new)>(pairs: seq<(K, string)>): (m: map<K, seq<string>>)
    ensures forall k :: k in m <==> exists i :: 0 <= i < |pairs| && pairs[i].0 == k
  {
    if |pairs| == 0 then map[]
    else
      var m := GroupInto(pairs[..|pairs| - 1]);
      var last := pairs[|pairs| - 1];
      m[last.0 := (if last.0 in m then m[last.0] else []) + [last.1]]
  }

  /** Each list of the map is the bucket of its key, so every value lands in
      the list of its own key, in encounter order. */
  lemma {:induction false} GroupIntoBuckets<K(!new)>(pairs: seq<(K, string)>, k: K)
    ensures k in GroupInto(pairs) ==> GroupInto(pairs)[k] == Bucket(pairs, k)
    ensures k !in GroupInto(pairs) ==> Bucket(pairs, k) == []
  {
    if |pairs| > 0 {
      GroupIntoBuckets(pairs[..|pairs| - 1], k);
    }
  }

  /** The values of all pairs. */
  function Values<K(==,!new)>(pairs: seq<(K, string)>): (r: seq<string>)
    ensures |r| == |pairs|
    ensures forall i :: 0 <= i < |pairs| ==> r[i] == pairs[i].1
  {
    seq(|pairs|, i requires 0 <= i < |pairs| => pairs[i].1)
  }

  /** The buckets of the keys `order`, one after another. */
  function Buckets<K(==,!new)>(pairs: seq<(K, string)>, order: seq<K>): seq<string> {
    if |order| == 0 then [] else Bucket(pairs, order[0]) + Buckets(pairs, order[1..])
  }

  /** The lists of the map, in the order `order` of its keys, one after
      another. */
  function Lists<K(==,!new)>(m: map<K, seq<string>>, order: seq<K>): seq<string>
    requires forall i :: 0 <= i < |order| ==> order[i] in m
  {
    if |order| == 0 then [] else m[order[0]] + Lists(m, order[1..])
  }

  lemma {:induction false} ListsAppend<K(!new)>(m: map<K, seq<string>>, a: seq<K>, b: seq<K>)
    requires forall i :: 0 <= i < |a| ==> a[i] in m
    requires forall i :: 0 <= i < |b| ==> b[i] in m
    ensures Lists(m, a + b) == Lists(m, a) + Lists(m, b)
  {
    if |a| > 0 {
      assert (a + b)[1..] == a[1..] + b;
      ListsAppend(m, a[1..], b);
    } else {
      assert a + b == b;
    }
  }

  /** Rearranging the keys rearranges the concatenated lists. */
  lemma {:induction false} ListsPermute<K(!new)>(m: map<K, seq<string>>, xs: seq<K>, ys: seq<K>)
    requires forall i :: 0 <= i < |xs| ==> xs[i] in m
    requires forall i :: 0 <= i < |ys| ==> ys[i] in m
    requires multiset(xs) == multiset(ys)
    ensures multiset(Lists(m, xs)) == multiset(Lists(m, ys))
    decreases |xs|
  {
    if |xs| == 0 {
      assert |ys| == |multiset(ys)| == 0;
    } else {
      var x := xs[0];
      assert x in multiset(ys);
      var k :| 0 <= k < |ys| && ys[k] == x;
      var front, back := ys[..k], ys[k + 1..];
      RemoveAt(xs, ys, k);
      assert forall i :: 0 <= i < |front + back| ==> (front + back)[i] in ys;
      ListsPermute(m, xs[1..], front + back);
      ListsSplit(m, ys, k);
    }
  }

  lemma ListsSplit<K(!new)>(m: map<K, seq<string>>, ys: seq<K>, k: int)
    requires forall i :: 0 <= i < |ys| ==> ys[i] in m
    requires 0 <= k < |ys|
    ensures multiset(Lists(m, ys)) == multiset(Lists(m, ys[..k] + ys[k + 1..])) + multiset(m[ys[k]])
  {
    var front, back := ys[..k], ys[k + 1..];
    assert ys == front + ([ys[k]] + back);
    ListsAppend(m, front, back);
    ListsAppend(m, front, [ys[k]] + back);
    assert ([ys[k]] + back)[1..] == back;
  }

  lemma {:induction false} ListsAreBuckets<K(!new)>(pairs: seq<(K, string)>, order: seq<K>)
    requires forall i :: 0 <= i < |order| ==> order[i] in GroupInto(pairs)
    ensures Lists(GroupInto(pairs), order) == Buckets(pairs, order)
  {
    if |order| > 0 {
      GroupIntoBuckets(pairs, order[0]);
      ListsAreBuckets(pairs, order[1..]);
    }
  }

  /** Appending one pair adds its value to the buckets of a key list holding
      its key once, and nothing otherwise. */
  lemma {:induction false} BucketsStep<K(!new)>(pairs: seq<(K, string)>, order: seq<K>)
    requires |pairs| > 0
    requires forall i, j :: 0 <= i < j < |order| ==> order[i] != order[j]
    ensures multiset(Buckets(pairs, order))
         == multiset(Buckets(pairs[..|pairs| - 1], order))
          + (if pairs[|pairs| - 1].0 in order then multiset{pairs[|pairs| - 1].1} else multiset{})
  {
    if |order| > 0 {
      BucketsStep(pairs, order[1..]);
      var last := pairs[|pairs| - 1];
      var m0 := multiset(Bucket(pairs[..|pairs| - 1], order[0]));
      var m1 := multiset(Buckets(pairs[..|pairs| - 1], order[1..]));
      assert multiset(Buckets(pairs[..|pairs| - 1], order)) == m0 + m1;
      assert multiset(Buckets(pairs, order))
          == m0 + (if last.0 == order[0] then multiset{last.1} else multiset{}) + multiset(Buckets(pairs, order[1..]));
      if order[0] == last.0 {
        assert last.0 !in order[1..] by {
          forall i | 0 <= i < |order[1..]| ensures order[1..][i] != last.0 {
            assert order[0] != order[i + 1];
          }
        }
      } else {
        assert last.0 in order <==> last.0 in order[1..];
      }
    }
  }

  /** The buckets of distinct keys covering every key rearrange the values. */
  lemma {:induction false} BucketsPartition<K(!new)>(pairs: seq<(K, string)>, order: seq<K>)
    requires forall i, j :: 0 <= i < j < |order| ==> order[i] != order[j]
    requires forall i :: 0 <= i < |pairs| ==> pairs[i].0 in order
    ensures multiset(Buckets(pairs, order)) == multiset(Values(pairs))
  {
    if |pairs| == 0 {
      EmptyBuckets(pairs, order);
    } else {
      var init := pairs[..|pairs| - 1];
      assert pairs[|pairs| - 1].0 in order;
      BucketsStep(pairs, order);
      BucketsPartition(init, order);
      ValuesSnoc(pairs);
    }
  }

  lemma ValuesSnoc<K(!new)>(pairs: seq<(K, string)>)
    requires |pairs| > 0
    ensures Values(pairs) == Values(pairs[..|pairs| - 1]) + [pairs[|pairs| - 1].1]
  {
  }

  lemma {:induction false} EmptyBuckets<K(!new)>(pairs: seq<(K, string)>, order: seq<K>)
    requires |pairs| == 0
    ensures Buckets(pairs, order) == []
  {
    if |order| > 0 {
      EmptyBuckets(pairs, order[1..]);
    }
  }

  /** The lists of a grouped map, in any iteration order of its keys, are a
      rearrangement of the values. */
  lemma GroupIsPartition<K(!new)>(pairs: seq<(K, string)>, order: seq<K>)
    requires IsEnumeration(order, GroupInto(pairs).Keys)
    ensures multiset(Lists(GroupInto(pairs), order)) == multiset(Values(pairs))
  {
    ListsAreBuckets(pairs, order);
    forall i | 0 <= i < |pairs| ensures pairs[i].0 in order {
      assert pairs[i].0 in GroupInto(pairs);
    }
    BucketsPartition(pairs, order);
  }

  // ---------------------------------------------------------------------
  // The four maps

  /** The maps the loop fills. Each is filled independently of the others,
      so each is built by its own fold over the records. */
  datatype Groups = Groups(
    mcus: map<string, McuData>,        // ref name to loaded record, last wins
    gpio: map<string, seq<string>>,    // GPIO version to ref names
    packages: map<string, string>,     // ref name to package, STM32L0 only
    eeprom: map<nat, seq<string>>)     // EEPROM size to ref names

  /** The family whose HAL has package features. */
  const PackageFamily: string := "STM32L0"

  /** (GPIO version, ref name) of every record. */
  function GpioPairs(records: seq<McuRecord>): (r: seq<(string, string)>)
    ensures |r| == |records|
    ensures forall i :: 0 <= i < |records| ==> r[i] == (records[i].data.gpioVersion, records[i].refName)
  {
    seq(|records|, i requires 0 <= i < |records| => (records[i].data.gpioVersion, records[i].refName))
  }

  /** (EEPROM size, ref name) of every record with a known size. */
  function EepromPairs(records: seq<McuRecord>): (r: seq<(nat, string)>)
    ensures forall i :: 0 <= i < |r| ==> exists k :: 0 <= k < |records| && records[k].data.eepromSize == Some(r[i].0)
                                                     && records[k].refName == r[i].1
    ensures forall k :: 0 <= k < |records| && records[k].data.eepromSize.Some? ==>
              (records[k].data.eepromSize.value, records[k].refName) in r
    ensures |r| <= |records|
  {
    if |records| == 0 then []
    else
      var init := EepromPairs(records[..|records| - 1]);
      var last := records[|records| - 1];
      match last.data.eepromSize
      case None => init
      case Some(s) => init + [(s, last.refName)]
  }

  function McuMap(records: seq<McuRecord>): (m: map<string, McuData>)
    ensures forall n :: n in m <==> exists k :: 0 <= k < |records| && records[k].refName == n
  {
    if |records| == 0 then map[]
    else
      var last := records[|records| - 1];
      McuMap(records[..|records| - 1])[last.refName := last.data]
  }

  function PackageMap(records: seq<McuRecord>, family: string): (m: map<string, string>)
    ensures family != PackageFamily ==> m == map[]
    ensures family == PackageFamily ==> forall n :: n in m <==> exists k :: 0 <= k < |records| && records[k].refName == n
  {
    if |records| == 0 || family != PackageFamily then map[]
    else
      var last := records[|records| - 1];
      PackageMap(records[..|records| - 1], family)[last.refName := last.packageName]
  }

  /** The loop body applied to every record. */
  function Group(records: seq<McuRecord>, family: string): Groups {
    Groups(McuMap(records), GroupInto(GpioPairs(records)), PackageMap(records, family), GroupInto(EepromPairs(records)))
  }

  /** Which keys the loop creates: every visited ref name, every GPIO
      version and every known EEPROM size, and packages only for STM32L0. */
  lemma GroupKeys(records: seq<McuRecord>, family: string)
    ensures forall n :: n in Group(records, family).mcus <==> exists k :: 0 <= k < |records| && records[k].refName == n
    ensures forall v :: v in Group(records, family).gpio <==> exists k :: 0 <= k < |records| && records[k].data.gpioVersion == v
    ensures Group(records, family).packages != map[] ==> family == PackageFamily && |records| > 0
    ensures forall s :: s in Group(records, family).eeprom <==> exists k :: 0 <= k < |records| && records[k].data.eepromSize == Some(s)
  {
    GpioKeys(records);
    EepromKeys(records);
  }

  lemma GpioKeys(records: seq<McuRecord>)
    ensures forall v :: v in GroupInto(GpioPairs(records)) <==> exists k :: 0 <= k < |records| && records[k].data.gpioVersion == v
  {
    var gp := GpioPairs(records);
    forall v | v in GroupInto(gp) ensures exists k :: 0 <= k < |records| && records[k].data.gpioVersion == v {
      var i :| 0 <= i < |gp| && gp[i].0 == v;
    }
    forall v | exists k :: 0 <= k < |records| && records[k].data.gpioVersion == v ensures v in GroupInto(gp) {
      var k :| 0 <= k < |records| && records[k].data.gpioVersion == v;
      assert gp[k].0 == v;
    }
  }

  lemma EepromKeys(records: seq<McuRecord>)
    ensures forall s: nat :: s in GroupInto(EepromPairs(records)) <==> exists k :: 0 <= k < |records| && records[k].data.eepromSize == Some(s)
  {
    forall s: nat ensures s in GroupInto(EepromPairs(records)) <==> exists k :: 0 <= k < |records| && records[k].data.eepromSize == Some(s) {
      EepromKey(records, s);
    }
  }

  lemma EepromKey(records: seq<McuRecord>, s: nat)
    ensures s in GroupInto(EepromPairs(records)) <==> exists k :: 0 <= k < |records| && records[k].data.eepromSize == Some(s)
  {
    var ep := EepromPairs(records);
    if s in GroupInto(ep) {
      var i :| 0 <= i < |ep| && ep[i].0 == s;
      var k := PairOrigin(records, i);
    }
    if k :| 0 <= k < |records| && records[k].data.eepromSize == Some(s) {
      var i := PairOf(records, k);
    }
  }

  /** The EEPROM pushes follow the visiting order: the pairs of two runs
      of records, one after the other, are the pairs of the first run
      followed by those of the second. */
  lemma {:induction false} EepromPairsAppend(a: seq<McuRecord>, b: seq<McuRecord>)
    ensures EepromPairs(a + b) == EepromPairs(a) + EepromPairs(b)
    decreases |b|
  {
    if |b| == 0 {
      assert a + b == a;
    } else {
      var b' := b[..|b| - 1];
      assert (a + b)[..|a + b| - 1] == a + b';
      assert (a + b)[|a + b| - 1] == b[|b| - 1];
      EepromPairsAppend(a, b');
    }
  }

  /** A single record pushes one pair when it has a size, and none
      otherwise. */
  lemma EepromPairsOne(rec: McuRecord)
    ensures rec.data.eepromSize.Some? ==> EepromPairs([rec]) == [(rec.data.eepromSize.value, rec.refName)]
    ensures rec.data.eepromSize.None? ==> EepromPairs([rec]) == []
  {
    assert [rec][..0] == [];
  }

  /** Every pushed value is in the list of its own key. */
  lemma {:induction false} BucketHas<K(!new)>(pairs: seq<(K, string)>, i: int)
    requires 0 <= i < |pairs|
    ensures pairs[i].1 in Bucket(pairs, pairs[i].0)
  {
    var init := pairs[..|pairs| - 1];
    if i < |pairs| - 1 {
      assert init[i] == pairs[i];
      BucketHas(init, i);
    }
  }

  /** Every visited MCU is listed under its own GPIO version. */
  lemma GpioMember(records: seq<McuRecord>, family: string, k: int)
    requires 0 <= k < |records|
    ensures records[k].data.gpioVersion in Group(records, family).gpio
    ensures records[k].refName in Group(records, family).gpio[records[k].data.gpioVersion]
  {
    var gp := GpioPairs(records);
    assert gp[k] == (records[k].data.gpioVersion, records[k].refName);
    GroupIntoBuckets(gp, records[k].data.gpioVersion);
    BucketHas(gp, k);
  }

  /** Every visited MCU with a known EEPROM size is listed under that size. */
  lemma EepromMember(records: seq<McuRecord>, family: string, k: int)
    requires 0 <= k < |records| && records[k].data.eepromSize.Some?
    ensures records[k].data.eepromSize.value in Group(records, family).eeprom
    ensures records[k].refName in Group(records, family).eeprom[records[k].data.eepromSize.value]
  {
    var ep := EepromPairs(records);
    var p := (records[k].data.eepromSize.value, records[k].refName);
    assert p in ep;
    var i :| 0 <= i < |ep| && ep[i] == p;
    GroupIntoBuckets(ep, p.0);
    BucketHas(ep, i);
  }

  lemma PairOf(records: seq<McuRecord>, k: int) returns (i: int)
    requires 0 <= k < |records| && records[k].data.eepromSize.Some?
    ensures 0 <= i < |EepromPairs(records)| && EepromPairs(records)[i].0 == records[k].data.eepromSize.value
  {
    var ep := EepromPairs(records);
    var p := (records[k].data.eepromSize.value, records[k].refName);
    assert p in ep;
    i :| 0 <= i < |ep| && ep[i] == p;
  }

  lemma PairOrigin(records: seq<McuRecord>, i: int) returns (k: int)
    requires 0 <= i < |EepromPairs(records)|
    ensures 0 <= k < |records| && records[k].data.eepromSize == Some(EepromPairs(records)[i].0)
  {
    var ep := EepromPairs(records);
    k :| 0 <= k < |records| && records[k].data.eepromSize == Some(ep[i].0) && records[k].refName == ep[i].1;
  }

  /** The whole aggregation: find the family, visit and load its MCUs, group
      the records. */
  function Aggregate(families: seq<Family>, family: string, load: string -> Option<McuData>): (r: Result<Groups>)
    ensures FindFamily(families, family).Err? ==> r == Err(FamilyNotFound(family))
    ensures FindFamily(families, family).Ok? ==>
              (r.Err? <==> exists m :: m in Visit(FindFamily(families, family).value.subFamilies) && load(m.name).None?)
    ensures r.Ok? ==> Consistent(r.value)
    ensures r.Ok? ==> forall m :: m in Visit(FindFamily(families, family).value.subFamilies) ==> m.refName in r.value.mcus
  {
    var fam :- FindFamily(families, family);
    var mcus := Visit(fam.subFamilies);
    var records :- LoadRecords(mcus, load);
    GroupConsistent(records, family);
    GroupKeys(records, family);
    assert forall m :: m in mcus ==> m.refName in Group(records, family).mcus by {
      forall m | m in mcus ensures m.refName in Group(records, family).mcus {
        var k :| 0 <= k < |mcus| && mcus[k] == m;
        assert records[k].refName == m.refName;
      }
    }
    Ok(Group(records, family))
  }

  /** Every visited MCU lands in the list of its own GPIO version, in
      encounter order: the list of a version is exactly the ref names of the
      records with that version. */
  lemma GpioListsInOrder(records: seq<McuRecord>, family: string, v: string)
    requires v in Group(records, family).gpio
    ensures Group(records, family).gpio[v] == Bucket(GpioPairs(records), v)
  {
    GroupIntoBuckets(GpioPairs(records), v);
  }

  /** The per-version lists, in any iteration order of the versions, are a
      rearrangement of the visited ref names. */
  lemma GpioListsPartition(records: seq<McuRecord>, family: string, order: seq<string>)
    requires IsEnumeration(order, Group(records, family).gpio.Keys)
    ensures multiset(Lists(Group(records, family).gpio, order)) == multiset(RefNames(records))
  {
    var gp := GpioPairs(records);
    GroupIsPartition(gp, order);
    assert Values(gp) == RefNames(records);
  }

  function RefNames(records: seq<McuRecord>): (r: seq<string>)
    ensures |r| == |records|
    ensures forall i :: 0 <= i < |records| ==> r[i] == records[i].refName
  {
    seq(|records|, i requires 0 <= i < |records| => records[i].refName)
  }

  /** The EEPROM list of a size holds exactly the MCUs of that size, in
      encounter order. */
  lemma EepromListsInOrder(records: seq<McuRecord>, family: string, s: nat)
    requires s in Group(records, family).eeprom
    ensures Group(records, family).eeprom[s] == Bucket(EepromPairs(records), s)
  {
    GroupIntoBuckets(EepromPairs(records), s);
  }

  /** Only the STM32L0 family records packages, and then every visited MCU. */
  lemma PackagesOnlyForL0(records: seq<McuRecord>, family: string)
    ensures family == PackageFamily && |records| > 0 ==> Group(records, family).packages != map[]
    ensures family != PackageFamily ==> Group(records, family).packages == map[]
  {
    if family == PackageFamily && |records| > 0 {
      assert records[0].refName in Group(records, family).packages;
    }
  }

  /** Every value in a bucket comes from a pair with that key. */
  lemma {:induction false} BucketMembers<K(!new)>(pairs: seq<(K, string)>, k: K, x: string)
    requires x in Bucket(pairs, k)
    ensures exists i :: 0 <= i < |pairs| && pairs[i] == (k, x)
  {
    var init := pairs[..|pairs| - 1];
    if x in Bucket(init, k) {
      BucketMembers(init, k, x);
      var i :| 0 <= i < |init| && init[i] == (k, x);
      assert pairs[i] == (k, x);
    } else {
      assert pairs[|pairs| - 1] == (k, x);
    }
  }

  /** The GPIO lists only name MCUs whose record is in the MCU map, so the
      alias loop's lookups succeed. */
  ghost predicate Consistent(g: Groups) {
    forall v, i :: v in g.gpio && 0 <= i < |g.gpio[v]| ==> g.gpio[v][i] in g.mcus
  }

  lemma GroupConsistent(records: seq<McuRecord>, family: string)
    ensures Consistent(Group(records, family))
  {
    var g := Group(records, family);
    var gp := GpioPairs(records);
    forall v, i | v in g.gpio && 0 <= i < |g.gpio[v]| ensures g.gpio[v][i] in g.mcus {
      GroupIntoBuckets(gp, v);
      BucketMembers(gp, v, g.gpio[v][i]);
      var k :| 0 <= k < |gp| && gp[k] == (v, g.gpio[v][i]);
      assert records[k].refName == g.gpio[v][i];
    }
  }

  /** The package kept for a ref name is that of the last MCU visited
      under it. */
  lemma {:induction false} PackageMapLastWins(records: seq<McuRecord>, family: string, k: int)
    requires family == PackageFamily
    requires 0 <= k < |records|
    requires forall j :: k < j < |records| ==> records[j].refName != records[k].refName
    ensures records[k].refName in PackageMap(records, family)
    ensures PackageMap(records, family)[records[k].refName] == records[k].packageName
  {
    if k < |records| - 1 {
      PackageMapLastWins(records[..|records| - 1], family, k);
    }
  }

  /** The record kept for a ref name is the last one loaded under it. */
  lemma {:induction false} McuMapLastWins(records: seq<McuRecord>, k: int)
    requires 0 <= k < |records|
    requires forall j :: k < j < |records| ==> records[j].refName != records[k].refName
    ensures McuMap(records)[records[k].refName] == records[k].data
  {
    if k < |records| - 1 {
      McuMapLastWins(records[..|records| - 1], k);
    }
  }
}

=== FILE: mappings.dfy ===
/** `generate_pin_mappings` and `generate_eeprom_sizes`: the two generators
    that print Rust source instead of Cargo features. */
module Mappings {
  import opened Base
  import opened Text
  import opened Sorting
  import opened Versions
  import Peripheral
  import PinModes

  /** What a generator printed, and the error that stopped it, if any: the
      lines printed before an error stay printed. */
  datatype Emission = Emission(lines: seq<string>, error: Option<Error>)

  /** `#[cfg(feature = "<feature>")]`. */
  function CfgLine(feature: string): string {
    "#[cfg(feature = \"" + feature + "\")]"
  }

  /** Where the GPIO IP files come from: `load` reads the file of a version
      (`None` when it cannot be read or parsed) and `pinOrder` is the
      iteration order of that file's pin map. */
  datatype GpioSource = GpioSource(load: string -> Option<Peripheral.IpGpio>, pinOrder: string -> seq<string>)

  /** The file of `v`, if it loads, satisfies `render_pin_modes`'
      assumptions, and the pin order enumerates its pin map. */
  ghost predicate LoadOk(src: GpioSource, v: string) {
    src.load(v).Some? ==>
      && PinModes.PinsOk(src.load(v).value.pins)
      && IsEnumeration(src.pinOrder(v), PinModes.PinMap(src.load(v).value.pins).Keys)
  }

  /** A version that does not convert stops the loop before its file is
      read, so only the file of a convertible version matters. */
  ghost predicate BlockOk(v: string, src: GpioSource) {
    GpioVersionToFeature(v).Ok? ==> LoadOk(src, v)
  }

  /** The loop reads the file of a version only when every earlier version
      rendered: the files after the first failure may hold anything. */
  ghost predicate ReachedOk(versions: seq<string>, src: GpioSource)
    decreases |versions|
  {
    |versions| > 0 ==>
      && BlockOk(versions[0], src)
      && (Renders(versions[0], src) ==> ReachedOk(versions[1..], src))
  }

  /** The `pins!` table of the file of `v`, which loaded. */
  function Table(src: GpioSource, v: string, cmp: (string, string) -> bool): (lines: seq<string>)
    requires LoadOk(src, v) && src.load(v).Some?
    requires TotalPreorder(cmp)
    ensures |lines| >= 2 && lines[0] == "pins! {"
  {
    PinModes.RenderPinModes(src.load(v).value, cmp, src.pinOrder(v))
  }

  /** Whether a version gets through both `?`s of the loop. */
  predicate Renders(v: string, src: GpioSource) {
    GpioVersionToFeature(v).Ok? && src.load(v).Some?
  }

  /** The error a version stops the loop with, if any: a bad version is
      reported before its file is read. */
  function Failure(v: string, src: GpioSource): Option<Error> {
    if GpioVersionToFeature(v).Err? then Some(BadVersion(v))
    else if src.load(v).None? then Some(GpioLoadFailed(v))
    else None
  }

  /** One turn of the loop: a version that does not convert stops before
      printing anything; one whose file does not load stops after its cfg
      line; otherwise the cfg line, the `pins!` table and two empty lines. */
  function VersionBlock(v: string, src: GpioSource, cmp: (string, string) -> bool): (r: Emission)
    requires BlockOk(v, src) && TotalPreorder(cmp)
    ensures r.error.None? <==> Renders(v, src)
    ensures r.error == Failure(v, src)
    ensures GpioVersionToFeature(v).Err? ==> r == Emission([], Some(BadVersion(v)))
    ensures GpioVersionToFeature(v).Ok? ==> |r.lines| >= 1 && r.lines[0] == CfgLine(GpioVersionToFeature(v).value)
    ensures GpioVersionToFeature(v).Ok? && src.load(v).None? ==> r.lines == [r.lines[0]] && r.error == Some(GpioLoadFailed(v))
    ensures r.error.None? ==> |r.lines| >= 5 && r.lines[1] == "pins! {"
  {
    match GpioVersionToFeature(v)
    case Err(e) => Emission([], Some(e))
    case Ok(feature) => LoadedBlock(v, feature, src, cmp)
  }

  /** The part of a turn after the version converted to `feature`. */
  function LoadedBlock(v: string, feature: string, src: GpioSource, cmp: (string, string) -> bool): (r: Emission)
    requires LoadOk(src, v) && TotalPreorder(cmp)
    ensures |r.lines| >= 1 && r.lines[0] == CfgLine(feature)
    ensures r.error.None? <==> src.load(v).Some?
    ensures src.load(v).None? ==> r.lines == [r.lines[0]] && r.error == Some(GpioLoadFailed(v))
    ensures r.error.None? ==> |r.lines| >= 5 && r.lines[1] == "pins! {"
    ensures r.error.None? ==> r.lines[1..|r.lines| - 2] == Table(src, v, cmp) && r.lines[|r.lines| - 2..] == ["", ""]
  {
    if src.load(v).None? then Emission([CfgLine(feature)], Some(GpioLoadFailed(v)))
    else Emission([CfgLine(feature)] + Table(src, v, cmp) + ["", ""], None)
  }

  /** The loop with `?`: prints the blocks one after another and stops at
      the first that failed, after printing what it printed. */
  function Stream(blocks: seq<Emission>): (r: Emission)
    ensures r.error.None? <==> forall i :: 0 <= i < |blocks| ==> blocks[i].error.None?
    ensures r.error.Some? ==> exists k :: 0 <= k < |blocks| && blocks[k].error == r.error
                                          && forall j :: 0 <= j < k ==> blocks[j].error.None?
  {
    if |blocks| == 0 then Emission([], None)
    else if blocks[0].error.Some? then blocks[0]
    else
      var rest := Stream(blocks[1..]);
      if rest.error.Some? then
        var k :| 0 <= k < |blocks[1..]| && blocks[1..][k].error == rest.error
                 && forall j :: 0 <= j < k ==> blocks[1..][j].error.None?;
        assert blocks[k + 1].error == rest.error;
        Emission(blocks[0].lines + rest.lines, rest.error)
      else
        Emission(blocks[0].lines + rest.lines, None)
  }

  /** The output is streamed: what a shorter run prints is a prefix of what
      the longer run prints. */
  lemma {:induction false} StreamPrefix(blocks: seq<Emission>, k: nat)
    requires k <= |blocks|
    ensures |Stream(blocks[..k]).lines| <= |Stream(blocks).lines|
    ensures Stream(blocks).lines[..|Stream(blocks[..k]).lines|] == Stream(blocks[..k]).lines
  {
    if k > 0 {
      assert blocks[..k][0] == blocks[0];
      if blocks[0].error.None? {
        assert blocks[..k][1..] == blocks[1..][..k - 1];
        StreamPrefix(blocks[1..], k - 1);
      }
    }
  }

  /** A run that succeeds prints every line of every block. */
  lemma {:induction false} StreamPrints(blocks: seq<Emission>, i: int, x: string)
    requires Stream(blocks).error.None?
    requires 0 <= i < |blocks| && x in blocks[i].lines
    ensures x in Stream(blocks).lines
  {
    if i > 0 {
      StreamPrints(blocks[1..], i - 1, x);
    }
  }

  /** Every line of the blocks, one block after another. */
  function AllLines(blocks: seq<Emission>): seq<string> {
    if |blocks| == 0 then [] else blocks[0].lines + AllLines(blocks[1..])
  }

  /** A run in which no block fails prints the blocks one after another. */
  lemma {:induction false} StreamAllLines(blocks: seq<Emission>)
    requires forall i :: 0 <= i < |blocks| ==> blocks[i].error.None?
    ensures Stream(blocks).lines == AllLines(blocks)
  {
    if |blocks| > 0 {
      StreamAllLines(blocks[1..]);
    }
  }

  /** A failing run stops at its first failing block: it prints the blocks
      before it in full, then what the failing block printed, and nothing
      after. */
  lemma StreamStopsAt(blocks: seq<Emission>) returns (k: int)
    requires Stream(blocks).error.Some?
    ensures 0 <= k < |blocks| && blocks[k].error == Stream(blocks).error
    ensures forall j :: 0 <= j < k ==> blocks[j].error.None?
    ensures Stream(blocks).lines == AllLines(blocks[..k]) + blocks[k].lines
    ensures AllLines(blocks[..k]) <= Stream(blocks).lines
  {
    k := StreamSplitsAt(blocks);
    assert AllLines(blocks[..k]) == Stream(blocks).lines[..|AllLines(blocks[..k])|];
  }

  lemma {:induction false} StreamSplitsAt(blocks: seq<Emission>) returns (k: int)
    requires Stream(blocks).error.Some?
    ensures 0 <= k < |blocks| && blocks[k].error == Stream(blocks).error
    ensures forall j :: 0 <= j < k ==> blocks[j].error.None?
    ensures Stream(blocks).lines == AllLines(blocks[..k]) + blocks[k].lines
  {
    if blocks[0].error.Some? {
      k := 0;
      assert blocks[..0] == [];
    } else {
      var k' := StreamSplitsAt(blocks[1..]);
      k := k' + 1;
      assert forall j :: 1 <= j <= k ==> blocks[j] == blocks[1..][j - 1];
      assert blocks[..k][1..] == blocks[1..][..k'];
      assert AllLines(blocks[..k]) == blocks[0].lines + AllLines(blocks[1..][..k']);
      assert Stream(blocks).lines == blocks[0].lines + Stream(blocks[1..]).lines;
    }
  }

  /** How many versions the loop reaches: every version up to and
      including the first that does not render, and no later one. */
  function Reach(versions: seq<string>, src: GpioSource): (n: nat)
    ensures n <= |versions|
    ensures forall i :: 0 <= i < n - 1 ==> Renders(versions[i], src)
    ensures n < |versions| ==> n > 0 && !Renders(versions[n - 1], src)
    ensures ReachedOk(versions, src) ==> forall i :: 0 <= i < n ==> BlockOk(versions[i], src)
    decreases |versions|
  {
    if |versions| == 0 then 0
    else if !Renders(versions[0], src) then 1
    else
      var m := Reach(versions[1..], src);
      assert forall i :: 1 <= i <= m ==> versions[i] == versions[1..][i - 1];
      m + 1
  }

  /** The blocks of the versions the loop reaches, in order. */
  function Reached(versions: seq<string>, src: GpioSource, cmp: (string, string) -> bool): (r: seq<Emission>)
    requires ReachedOk(versions, src) && TotalPreorder(cmp)
    ensures |r| == Reach(versions, src)
    ensures forall i :: 0 <= i < |r| ==> BlockOk(versions[i], src) && r[i] == VersionBlock(versions[i], src, cmp)
  {
    var n := Reach(versions, src);
    seq(n, i requires 0 <= i < n && BlockOk(versions[i], src) => VersionBlock(versions[i], src, cmp))
  }

  /** A run succeeds exactly when it reaches and renders every version. */
  lemma AllReached(versions: seq<string>, src: GpioSource, cmp: (string, string) -> bool)
    requires ReachedOk(versions, src) && TotalPreorder(cmp)
    ensures Stream(Reached(versions, src, cmp)).error.None? <==>
              |Reached(versions, src, cmp)| == |versions| && forall i :: 0 <= i < |versions| ==> Renders(versions[i], src)
  {
    var r := Reached(versions, src, cmp);
    if |r| < |versions| {
      var last := r[|r| - 1];
      assert last.error == Failure(versions[|r| - 1], src);
    }
  }

  /** `s2` holds the same files as `s1` for every version the loop reaches
      under `s1`. */
  ghost predicate AgreeOnReached(versions: seq<string>, s1: GpioSource, s2: GpioSource)
    decreases |versions|
  {
    |versions| > 0 ==>
      && s1.load(versions[0]) == s2.load(versions[0])
      && s1.pinOrder(versions[0]) == s2.pinOrder(versions[0])
      && (Renders(versions[0], s1) ==> AgreeOnReached(versions[1..], s1, s2))
  }

  /** The output depends only on the files of the versions the loop
      reaches: two sources that agree on those files give the same blocks. */
  lemma ReachedIgnoresUnreached(versions: seq<string>, s1: GpioSource, s2: GpioSource, cmp: (string, string) -> bool)
    requires ReachedOk(versions, s1) && TotalPreorder(cmp)
    requires AgreeOnReached(versions, s1, s2)
    ensures ReachedOk(versions, s2)
    ensures Reached(versions, s1, cmp) == Reached(versions, s2, cmp)
  {
    ReachAgrees(versions, s1, s2);
    var r1 := Reached(versions, s1, cmp);
    var r2 := Reached(versions, s2, cmp);
    forall i | 0 <= i < |r1| ensures r1[i] == r2[i] {
      BlockAgrees(versions[i], s1, s2, cmp);
    }
  }

  /** Sources that agree on the reached files reach the same versions. */
  lemma {:induction false} ReachAgrees(versions: seq<string>, s1: GpioSource, s2: GpioSource)
    requires AgreeOnReached(versions, s1, s2)
    ensures Reach(versions, s1) == Reach(versions, s2)
    ensures ReachedOk(versions, s1) ==> ReachedOk(versions, s2)
    ensures forall i :: 0 <= i < Reach(versions, s1) ==>
              s1.load(versions[i]) == s2.load(versions[i]) && s1.pinOrder(versions[i]) == s2.pinOrder(versions[i])
    decreases |versions|
  {
    if |versions| > 0 && Renders(versions[0], s1) {
      ReachAgrees(versions[1..], s1, s2);
      assert forall i :: 1 <= i < Reach(versions, s1) ==> versions[i] == versions[1..][i - 1];
    }
  }

  /** A block depends only on the file of its own version. */
  lemma BlockAgrees(v: string, s1: GpioSource, s2: GpioSource, cmp: (string, string) -> bool)
    requires BlockOk(v, s1) && BlockOk(v, s2) && TotalPreorder(cmp)
    requires s1.load(v) == s2.load(v) && s1.pinOrder(v) == s2.pinOrder(v)
    ensures VersionBlock(v, s1, cmp) == VersionBlock(v, s2, cmp)
  {
    if GpioVersionToFeature(v).Ok? && s1.load(v).Some? {
      assert Table(s1, v, cmp) == Table(s2, v, cmp);
    }
  }

  /** `generate_pin_mappings`: the versions sorted lexicographically, then the
      loop. Fails exactly when some version does not convert or its file
      does not load. */
  function GeneratePinMappings(gpio: map<string, seq<string>>, order: seq<string>, src: GpioSource, cmp: (string, string) -> bool): (r: Emission)
    requires IsEnumeration(order, gpio.Keys)
    requires ReachedOk(VersionOrder(order), src) && TotalPreorder(cmp)
    ensures r.error.None? <==> forall v :: v in gpio ==> Renders(v, src)
    ensures r.error.Some? ==> exists v :: v in gpio && !Renders(v, src) && Failure(v, src) == r.error
  {
    var versions := VersionOrder(order);
    SortedVersions(gpio, order, versions);
    StreamOfVersions(gpio, versions, src, cmp);
    Stream(Reached(versions, src, cmp))
  }

  /** `gpio_versions.sort()`: the versions in ascending `String` order. As
      that order is total, this is the only sorted arrangement. */
  function VersionOrder(order: seq<string>): (versions: seq<string>)
    ensures Sorted(versions, LexLe)
    ensures multiset(versions) == multiset(order)
  {
    LexOrder();
    SortBy(order, LexLe)
  }

  /** A successful run reaches every version and prints the block of each,
      in ascending version order. */
  lemma PinMappingsInOrder(gpio: map<string, seq<string>>, order: seq<string>, src: GpioSource, cmp: (string, string) -> bool)
    requires IsEnumeration(order, gpio.Keys)
    requires ReachedOk(VersionOrder(order), src) && TotalPreorder(cmp)
    requires GeneratePinMappings(gpio, order, src, cmp).error.None?
    ensures |Reached(VersionOrder(order), src, cmp)| == |VersionOrder(order)|
    ensures GeneratePinMappings(gpio, order, src, cmp).lines == AllLines(Reached(VersionOrder(order), src, cmp))
  {
    var blocks := Reached(VersionOrder(order), src, cmp);
    assert GeneratePinMappings(gpio, order, src, cmp) == Stream(blocks);
    AllReached(VersionOrder(order), src, cmp);
    StreamAllLines(blocks);
  }

  /** A failing run stops at the `k`-th version in ascending order: it
      prints the whole blocks of the versions before it, then what that
      version printed, and never reaches the later versions. */
  lemma FailureAfterEarlierBlocks(gpio: map<string, seq<string>>, order: seq<string>, src: GpioSource, cmp: (string, string) -> bool) returns (k: int)
    requires IsEnumeration(order, gpio.Keys)
    requires ReachedOk(VersionOrder(order), src) && TotalPreorder(cmp)
    requires GeneratePinMappings(gpio, order, src, cmp).error.Some?
    ensures 0 <= k < |VersionOrder(order)| && !Renders(VersionOrder(order)[k], src)
    ensures forall j :: 0 <= j < k ==> Renders(VersionOrder(order)[j], src)
    ensures Failure(VersionOrder(order)[k], src) == GeneratePinMappings(gpio, order, src, cmp).error
    ensures |Reached(VersionOrder(order), src, cmp)| == k + 1
    ensures GeneratePinMappings(gpio, order, src, cmp).lines
              == AllLines(Reached(VersionOrder(order), src, cmp)[..k]) + Reached(VersionOrder(order), src, cmp)[k].lines
    ensures AllLines(Reached(VersionOrder(order), src, cmp)[..k]) <= GeneratePinMappings(gpio, order, src, cmp).lines
  {
    var versions := VersionOrder(order);
    assert GeneratePinMappings(gpio, order, src, cmp) == Stream(Reached(versions, src, cmp));
    k := VersionsStopAt(versions, src, cmp);
  }

  lemma VersionsStopAt(versions: seq<string>, src: GpioSource, cmp: (string, string) -> bool) returns (k: int)
    requires ReachedOk(versions, src) && TotalPreorder(cmp)
    requires Stream(Reached(versions, src, cmp)).error.Some?
    ensures 0 <= k < |versions| && !Renders(versions[k], src)
    ensures forall j :: 0 <= j < k ==> Renders(versions[j], src)
    ensures Failure(versions[k], src) == Stream(Reached(versions, src, cmp)).error
    ensures |Reached(versions, src, cmp)| == k + 1
    ensures Stream(Reached(versions, src, cmp)).lines == AllLines(Reached(versions, src, cmp)[..k]) + Reached(versions, src, cmp)[k].lines
    ensures AllLines(Reached(versions, src, cmp)[..k]) <= Stream(Reached(versions, src, cmp)).lines
  {
    var blocks := Reached(versions, src, cmp);
    k := StreamStopsAt(blocks);
    assert blocks[k].error.Some?;
  }

  /** A run whose first version does not convert prints nothing and reports
      that version, whatever the files of the other versions hold. */
  lemma FirstVersionFails(versions: seq<string>, src: GpioSource, cmp: (string, string) -> bool)
    requires TotalPreorder(cmp)
    requires |versions| > 0 && GpioVersionToFeature(versions[0]).Err?
    ensures ReachedOk(versions, src)
    ensures Stream(Reached(versions, src, cmp)) == Emission([], Some(BadVersion(versions[0])))
  {
    assert !Renders(versions[0], src);
  }

  /** The versions `A_gpio_v1_1` and `B_gpio_v1_0`: the first is a later GPIO
      version, so the run stops with its error and the file of the second is
      never read. */
  lemma UnreachedFileIgnored(src: GpioSource, cmp: (string, string) -> bool)
    requires TotalPreorder(cmp)
    ensures ReachedOk(["A_gpio_v1_1", "B_gpio_v1_0"], src)
    ensures Stream(Reached(["A_gpio_v1_1", "B_gpio_v1_0"], src, cmp)) == Emission([], Some(BadVersion("A_gpio_v1_1")))
  {
    var a := "A_gpio_v1_1";
    assert a[|a| - |GpioSuffix|..][9] != GpioSuffix[9];
    FirstVersionFails([a, "B_gpio_v1_0"], src, cmp);
  }

  lemma SortedVersions(gpio: map<string, seq<string>>, order: seq<string>, versions: seq<string>)
    requires IsEnumeration(order, gpio.Keys)
    requires multiset(versions) == multiset(order)
    ensures forall v :: v in gpio <==> v in versions
  {
    assert forall v :: v in versions <==> v in multiset(order);
  }

  lemma StreamOfVersions(gpio: map<string, seq<string>>, versions: seq<string>, src: GpioSource, cmp: (string, string) -> bool)
    requires ReachedOk(versions, src) && TotalPreorder(cmp)
    requires forall v :: v in gpio <==> v in versions
    ensures Stream(Reached(versions, src, cmp)).error.None? <==> forall v :: v in gpio ==> Renders(v, src)
    ensures Stream(Reached(versions, src, cmp)).error.Some? ==>
              exists v :: v in gpio && !Renders(v, src) && Failure(v, src) == Stream(Reached(versions, src, cmp)).error
  {
    var blocks := Reached(versions, src, cmp);
    var r := Stream(blocks);
    AllReached(versions, src, cmp);
    if r.error.Some? {
      var k :| 0 <= k < |blocks| && blocks[k].error == r.error;
      assert versions[k] in gpio;
    } else {
      forall v | v in gpio ensures Renders(v, src) {
        var i :| 0 <= i < |versions| && versions[i] == v;
      }
    }
  }

  /** The versions are sorted first, so the hash-map order does not matter. */
  lemma PinMappingsIgnoreOrder(gpio: map<string, seq<string>>, o1: seq<string>, o2: seq<string>, src: GpioSource, cmp: (string, string) -> bool)
    requires IsEnumeration(o1, gpio.Keys) && IsEnumeration(o2, gpio.Keys)
    requires ReachedOk(VersionOrder(o1), src) && TotalPreorder(cmp)
    ensures VersionOrder(o1) == VersionOrder(o2)
    ensures GeneratePinMappings(gpio, o1, src, cmp) == GeneratePinMappings(gpio, o2, src, cmp)
  {
    LexOrder();
    EnumerationsPermute(o1, o2, gpio.Keys);
    SortIgnoresInputOrder(o1, o2, LexLe);
  }

  /** Only the files the loop reaches matter: two sources that agree on
      them give the same output. */
  lemma PinMappingsIgnoreUnreached(gpio: map<string, seq<string>>, order: seq<string>, s1: GpioSource, s2: GpioSource, cmp: (string, string) -> bool)
    requires IsEnumeration(order, gpio.Keys)
    requires ReachedOk(VersionOrder(order), s1) && TotalPreorder(cmp)
    requires AgreeOnReached(VersionOrder(order), s1, s2)
    ensures ReachedOk(VersionOrder(order), s2)
    ensures GeneratePinMappings(gpio, order, s1, cmp) == GeneratePinMappings(gpio, order, s2, cmp)
  {
    ReachedIgnoresUnreached(VersionOrder(order), s1, s2, cmp);
  }

  /** The error reported is that of the lexicographically least version
      that does not render. */
  lemma FirstFailureReported(gpio: map<string, seq<string>>, order: seq<string>, src: GpioSource, cmp: (string, string) -> bool)
    requires IsEnumeration(order, gpio.Keys)
    requires ReachedOk(VersionOrder(order), src) && TotalPreorder(cmp)
    requires GeneratePinMappings(gpio, order, src, cmp).error.Some?
    ensures exists v :: && v in gpio && !Renders(v, src)
                        && Failure(v, src) == GeneratePinMappings(gpio, order, src, cmp).error
                        && forall w :: w in gpio && !Renders(w, src) ==> LexLe(v, w)
  {
    var versions := VersionOrder(order);
    SortedVersions(gpio, order, versions);
    assert GeneratePinMappings(gpio, order, src, cmp) == Stream(Reached(versions, src, cmp));
    var k := LeastFailure(versions, src, cmp);
    var v := versions[k];
    assert v in gpio;
    assert forall w :: w in gpio && !Renders(w, src) ==> LexLe(v, w);
  }

  lemma LeastFailure(versions: seq<string>, src: GpioSource, cmp: (string, string) -> bool) returns (k: int)
    requires ReachedOk(versions, src) && TotalPreorder(cmp)
    requires Sorted(versions, LexLe)
    requires Stream(Reached(versions, src, cmp)).error.Some?
    ensures 0 <= k < |versions| && !Renders(versions[k], src)
    ensures Failure(versions[k], src) == Stream(Reached(versions, src, cmp)).error
    ensures forall w :: w in versions && !Renders(w, src) ==> LexLe(versions[k], w)
  {
    k := VersionsStopAt(versions, src, cmp);
    forall w | w in versions && !Renders(w, src) ensures LexLe(versions[k], w) {
      NotBeforeIsAbove(versions, k, w);
    }
  }

  /** In a sorted list, a value that does not occur before position `k` is
      not below the value at `k`. */
  lemma NotBeforeIsAbove(versions: seq<string>, k: int, w: string)
    requires Sorted(versions, LexLe)
    requires 0 <= k < |versions| && w in versions
    requires forall j :: 0 <= j < k ==> versions[j] != w
    ensures LexLe(versions[k], w)
  {
    var j :| 0 <= j < |versions| && versions[j] == w;
    if j == k {
      LexTotal(w, w);
    }
  }

  /** In a successful run every GPIO version's feature gates a block. */
  lemma PinMappingsGates(gpio: map<string, seq<string>>, order: seq<string>, src: GpioSource, cmp: (string, string) -> bool, v: string)
    requires IsEnumeration(order, gpio.Keys)
    requires ReachedOk(VersionOrder(order), src) && TotalPreorder(cmp)
    requires GeneratePinMappings(gpio, order, src, cmp).error.None?
    requires v in gpio
    ensures GpioVersionToFeature(v).Ok?
    ensures CfgLine(GpioVersionToFeature(v).value) in GeneratePinMappings(gpio, order, src, cmp).lines
  {
    var versions := VersionOrder(order);
    var blocks := Reached(versions, src, cmp);
    assert GeneratePinMappings(gpio, order, src, cmp) == Stream(blocks);
    SortedVersions(gpio, order, versions);
    AllReached(versions, src, cmp);
    var i :| 0 <= i < |versions| && versions[i] == v;
    assert blocks[i].lines[0] in blocks[i].lines;
    StreamPrints(blocks, i, blocks[i].lines[0]);
  }

  // ---------------------------------------------------------------------
  // EEPROM sizes

  const EepromHeader: string := "// EEPROM sizes in bytes, generated with cube-parse"
  const SizeConst: string := "const EEPROM_SIZE_BYTES: u32 = "

  /** The two lines of one size: the feature gate and the constant. */
  function SizeBlock(size: nat): seq<string> {
    [CfgLine(EepromSizeToFeature(size)), SizeConst + NatToString(size) + ";"]
  }

  function SizeBlocks(sizes: seq<nat>): (lines: seq<string>)
    ensures |lines| == 2 * |sizes|
  {
    if |sizes| == 0 then [] else SizeBlock(sizes[0]) + SizeBlocks(sizes[1..])
  }

  /** `generate_eeprom_sizes`: the header, then one block per size in the
      iteration order of the map (which is not sorted). */
  function GenerateEepromSizes(eeprom: map<nat, seq<string>>, order: seq<nat>): (lines: seq<string>)
    requires IsEnumeration(order, eeprom.Keys)
    ensures |lines| == 1 + 2 * |eeprom|
    ensures lines[0] == EepromHeader
  {
    EnumerationSize(order, eeprom.Keys);
    [EepromHeader] + SizeBlocks(order)
  }

  /** Reads the size back from a constant line. */
  function ReadConst(line: string): nat {
    if |line| > |SizeConst| && AllDigits(line[|SizeConst|..|line| - 1]) then ParseNat(line[|SizeConst|..|line| - 1]) else 0
  }

  /** Reads the sizes back from the constant lines of the blocks. */
  function ReadSizes(lines: seq<string>): seq<nat>
    decreases |lines|
  {
    if |lines| < 2 then [] else [ReadConst(lines[1])] + ReadSizes(lines[2..])
  }

  /** Each constant line states its block's size. */
  lemma SizeBlockRoundTrip(size: nat)
    ensures ReadConst(SizeBlock(size)[1]) == size
  {
    var digits := NatToString(size);
    var line := SizeConst + digits + ";";
    assert line[|SizeConst|..|line| - 1] == digits;
    ParseNatToString(size);
  }

  /** The constants list exactly the sizes, in the order printed. */
  lemma {:induction false} SizesRoundTrip(eeprom: map<nat, seq<string>>, order: seq<nat>)
    requires IsEnumeration(order, eeprom.Keys)
    ensures ReadSizes(GenerateEepromSizes(eeprom, order)[1..]) == order
  {
    assert GenerateEepromSizes(eeprom, order)[1..] == SizeBlocks(order);
    BlocksRoundTrip(order);
  }

  lemma {:induction false} BlocksRoundTrip(sizes: seq<nat>)
    ensures ReadSizes(SizeBlocks(sizes)) == sizes
  {
    if |sizes| > 0 {
      var lines := SizeBlocks(sizes);
      assert lines[1] == SizeBlock(sizes[0])[1];
      assert lines[2..] == SizeBlocks(sizes[1..]);
      SizeBlockRoundTrip(sizes[0]);
      BlocksRoundTrip(sizes[1..]);
    }
  }

  /** The feature gating each constant names the same size. */
  lemma GateMatchesConst(size: nat)
    ensures SizeBlock(size)[0] == CfgLine(EepromSizeToFeature(ReadConst(SizeBlock(size)[1])))
  {
    SizeBlockRoundTrip(size);
  }
}

=== FILE: patterns.dfy ===
/** The fixed regular expressions of the generator, which use only literal
    characters, `.` and optional groups. Such a regex denotes finitely many
    "shapes" (one per choice of the optional groups), and an unanchored
    `Regex::is_match` holds when some shape occurs somewhere in the text. */
module Patterns {

  /** One position of a shape: a literal character, or `.`, which in the
      regex crate matches any character except a line feed. */
  datatype Atom = Lit(c: char) | AnyChar

  predicate AtomMatches(a: Atom, ch: char) {
    match a
    case Lit(c) => ch == c
    case AnyChar => ch != '\n'
  }

  /** The shape `p` matches the text `s` at index `i`. */
  predicate ShapeAt(s: string, i: int, p: seq<Atom>) {
    && 0 <= i
    && i + |p| <= |s|
    && forall k :: 0 <= k < |p| ==> AtomMatches(p[k], s[i + k])
  }

  /** The shape of a regex written with literal characters and `.` only. */
  function Shape(text: string): (p: seq<Atom>)
    ensures |p| == |text|
    ensures forall i :: 0 <= i < |text| ==> (p[i] == AnyChar <==> text[i] == '.')
    ensures forall i :: 0 <= i < |text| && text[i] != '.' ==> p[i] == Lit(text[i])
  {
    seq(|text|, i requires 0 <= i < |text| => if text[i] == '.' then AnyChar else Lit(text[i]))
  }

  lemma ShapeAppend(a: string, b: string)
    ensures Shape(a + b) == Shape(a) + Shape(b)
  {
  }

  /** Anchored match: walks the text and the shape together. */
  predicate MatchesPrefix(s: string, p: seq<Atom>) {
    if |p| == 0 then true
    else |s| > 0 && AtomMatches(p[0], s[0]) && MatchesPrefix(s[1..], p[1..])
  }

  /** Unanchored search: tries every start index from the left. */
  predicate Search(s: string, p: seq<Atom>) {
    MatchesPrefix(s, p) || (|s| > 0 && Search(s[1..], p))
  }

  /** The walk decides whether the shape matches at the start. */
  lemma {:induction false} MatchesPrefixSpec(s: string, p: seq<Atom>)
    ensures MatchesPrefix(s, p) <==> ShapeAt(s, 0, p)
  {
    if |p| > 0 && |s| > 0 {
      MatchesPrefixSpec(s[1..], p[1..]);
      if ShapeAt(s[1..], 0, p[1..]) && AtomMatches(p[0], s[0]) {
        forall k | 0 <= k < |p| ensures AtomMatches(p[k], s[k]) {
          if k > 0 {
            assert AtomMatches(p[1..][k - 1], s[1..][k - 1]);
          }
        }
      }
      if ShapeAt(s, 0, p) {
        forall k | 0 <= k < |p| - 1 ensures AtomMatches(p[1..][k], s[1..][k]) {
          assert AtomMatches(p[k + 1], s[k + 1]);
        }
      }
    }
  }

  /** The search finds exactly the shapes that occur at some index. */
  lemma {:induction false} SearchSpec(s: string, p: seq<Atom>)
    ensures Search(s, p) <==> exists i :: ShapeAt(s, i, p)
  {
    MatchesPrefixSpec(s, p);
    if |s| > 0 {
      SearchSpec(s[1..], p);
      ShiftShape(s, p);
      if Search(s[1..], p) {
        var i :| ShapeAt(s[1..], i, p);
        assert ShapeAt(s, i + 1, p);
      }
    } else if exists i :: ShapeAt(s, i, p) {
      var i :| ShapeAt(s, i, p);
      assert i == 0;
    }
  }

  /** Matching in the tail at `i >= 0` is matching in the whole text at `i + 1`. */
  lemma ShiftShape(s: string, p: seq<Atom>)
    requires |s| > 0
    ensures forall i :: 0 <= i ==> (ShapeAt(s[1..], i, p) <==> ShapeAt(s, i + 1, p))
    ensures (exists i :: ShapeAt(s, i, p)) ==> ShapeAt(s, 0, p) || exists i :: ShapeAt(s[1..], i, p)
  {
    forall i | 0 <= i ensures ShapeAt(s[1..], i, p) <==> ShapeAt(s, i + 1, p) {
      if ShapeAt(s[1..], i, p) {
        forall k | 0 <= k < |p| ensures AtomMatches(p[k], s[i + 1 + k]) {
          assert s[1..][i + k] == s[i + 1 + k];
        }
      }
      if ShapeAt(s, i + 1, p) {
        forall k | 0 <= k < |p| ensures AtomMatches(p[k], s[1..][i + k]) {
          assert s[1..][i + k] == s[i + 1 + k];
        }
      }
    }
    if exists i :: ShapeAt(s, i, p) {
      var i :| ShapeAt(s, i, p);
      if i > 0 {
        assert ShapeAt(s[1..], i - 1, p);
      }
    }
  }

  /** A shape with a literal character that the text lacks never matches. */
  lemma AbsentLiteral(s: string, p: seq<Atom>, c: char)
    requires Lit(c) in p
    requires c !in s
    ensures !Search(s, p)
  {
    SearchSpec(s, p);
    var k :| 0 <= k < |p| && p[k] == Lit(c);
    forall i ensures !ShapeAt(s, i, p) {
      if 0 <= i && i + |p| <= |s| {
        assert s[i + k] in s;
      }
    }
  }

  /** A shape with two adjacent literal characters that never occur next
      to each other in the text never matches. */
  lemma AbsentPair(s: string, p: seq<Atom>, k: int, a: char, b: char)
    requires 0 <= k && k + 1 < |p|
    requires p[k] == Lit(a) && p[k + 1] == Lit(b)
    requires forall j :: 0 <= j < |s| - 1 ==> s[j] != a || s[j + 1] != b
    ensures !Search(s, p)
  {
    SearchSpec(s, p);
    forall i ensures !ShapeAt(s, i, p) {
      if 0 <= i && i + |p| <= |s| {
        assert AtomMatches(p[k], s[i + k]) ==> AtomMatches(p[k + 1], s[i + k + 1]) ==> false;
      }
    }
  }

  /** An occurrence of `p + q` contains an occurrence of `q`. */
  lemma SearchDropsFront(s: string, p: seq<Atom>, q: seq<Atom>)
    requires Search(s, p + q)
    ensures Search(s, q)
  {
    SearchSpec(s, p + q);
    SearchSpec(s, q);
    var i :| ShapeAt(s, i, p + q);
    assert forall k :: 0 <= k < |q| ==> (p + q)[|p| + k] == q[k];
    assert ShapeAt(s, i + |p|, q);
  }

  /** A regex as the list of its alternative shapes. */
  type Regex = seq<seq<Atom>>

  /** `Regex::is_match`: some alternative occurs somewhere in the text. */
  predicate IsMatch(re: Regex, s: string) {
    |re| > 0 && (Search(s, re[0]) || IsMatch(re[1..], s))
  }

  lemma {:induction false} IsMatchSpec(re: Regex, s: string)
    ensures IsMatch(re, s) <==> exists k :: 0 <= k < |re| && Search(s, re[k])
  {
    if |re| > 0 {
      IsMatchSpec(re[1..], s);
      if exists k :: 0 <= k < |re| && Search(s, re[k]) {
        var k :| 0 <= k < |re| && Search(s, re[k]);
        if k > 0 {
          assert Search(s, re[1..][k - 1]);
        }
      }
    }
  }

  /** `(LP)?US?ART.` followed by `suffix`, spelled out as its four shapes. */
  function UsartRegex(suffix: string): Regex {
    [Shape("LPUART." + suffix), Shape("LPUSART." + suffix), Shape("UART." + suffix), Shape("USART." + suffix)]
  }

  /** The optional `LP` group changes nothing for an unanchored search: the
      USART patterns match exactly when `U`, an optional `S`, `ART`, any
      character and the suffix occur somewhere. */
  lemma UsartLowPowerIrrelevant(suffix: string, s: string)
    ensures IsMatch(UsartRegex(suffix), s)
        <==> Search(s, Shape("UART." + suffix)) || Search(s, Shape("USART." + suffix))
  {
    var re := UsartRegex(suffix);
    IsMatchSpec(re, s);
    assert "LPUART." + suffix == "LP" + ("UART." + suffix);
    assert "LPUSART." + suffix == "LP" + ("USART." + suffix);
    ShapeAppend("LP", "UART." + suffix);
    ShapeAppend("LP", "USART." + suffix);
    if Search(s, re[0]) {
      SearchDropsFront(s, Shape("LP"), Shape("UART." + suffix));
    }
    if Search(s, re[1]) {
      SearchDropsFront(s, Shape("LP"), Shape("USART." + suffix));
    }
    if Search(s, Shape("UART." + suffix)) {
      assert Search(s, re[2]);
    }
    if Search(s, Shape("USART." + suffix)) {
      assert Search(s, re[3]);
    }
  }
}

=== FILE: peripheral.dfy ===
/** The GPIO descriptor records and the signal classifier: alternate-function
    selector extraction, pin-name derivation and the seven role patterns that
    turn a pin's signals into capability strings. */
module Peripheral {
  import opened Base
  import opened Text
  import opened Patterns

  /** A named configuration parameter with its `PossibleValue` text. */
  datatype SpecificParameter = SpecificParameter(name: string, value: string)

  /** One signal a pin can carry; its parameter holds the alternate-function
      selector, e.g. `GPIO_AF5_USART2`. */
  datatype PinSignal = PinSignal(name: string, selector: SpecificParameter)

  /** One pin entry of a GPIO descriptor. */
  datatype GpioPin = GpioPin(
    portName: string,
    name: string,
    parameters: seq<SpecificParameter>,
    signals: Option<seq<PinSignal>>)

  /** A GPIO descriptor: the pin entries of one `GPIO-<version>_Modes` document. */
  datatype IpGpio = IpGpio(pins: seq<GpioPin>)

  // ---------------------------------------------------------------------
  // Alternate-function selector

  /** The selector has a second `_`-token, so reading it does not panic. */
  predicate HasAfToken(sig: PinSignal) {
    |Split(sig.selector.value, '_')| >= 2
  }

  /** `PinSignal::get_af_value`: the second `_`-token of the selector, kept
      with its `AF` prefix. */
  function AfValue(sig: PinSignal): (r: string)
    requires HasAfToken(sig)
    ensures '_' !in r
  {
    Split(sig.selector.value, '_')[1]
  }

  /** The token between the first and second underscore is what is read,
      whether or not more tokens follow. */
  lemma AfValueSelects(n: string, p: string, a: string, b: string, rest: string)
    requires '_' !in a && '_' !in b
    requires rest == [] || rest[0] == '_'
    ensures HasAfToken(PinSignal(n, SpecificParameter(p, a + "_" + b + rest)))
    ensures AfValue(PinSignal(n, SpecificParameter(p, a + "_" + b + rest))) == b
  {
    SecondToken(a, b, rest);
  }

  lemma SecondToken(a: string, b: string, rest: string)
    requires '_' !in a && '_' !in b
    requires rest == [] || rest[0] == '_'
    ensures |Split(a + "_" + b + rest, '_')| >= 2
    ensures Split(a + "_" + b + rest, '_')[1] == b
    ensures Split(a + "_" + b + rest, '_')[0] == a
  {
    SplitAfterPiece(a, '_', b + rest);
    assert a + "_" + b + rest == a + ['_'] + (b + rest);
    FirstToken(b, rest);
  }

  lemma FirstToken(b: string, rest: string)
    requires '_' !in b
    requires rest == [] || rest[0] == '_'
    ensures Split(b + rest, '_')[0] == b
  {
    if rest == [] {
      NoSeparatorSplit(b, '_');
      assert b + rest == b;
    } else {
      SplitAfterPiece(b, '_', rest[1..]);
      assert b + rest == b + ['_'] + rest[1..];
    }
  }

  // ---------------------------------------------------------------------
  // Pin name

  /** Index of the first parameter called `name`, as `Iterator::find` does. */
  function FirstParam(params: seq<SpecificParameter>, name: string): (r: Option<nat>)
    ensures r.None? <==> forall k :: 0 <= k < |params| ==> params[k].name != name
    ensures r.Some? ==> r.value < |params| && params[r.value].name == name
    ensures r.Some? ==> forall k :: 0 <= k < r.value ==> params[k].name != name
  {
    if |params| == 0 then None
    else if params[0].name == name then Some(0)
    else
      match FirstParam(params[1..], name)
      case None => None
      case Some(k) => Some(k + 1)
  }

  /** Either the pin has no `GPIO_Pin` parameter, or the first one has a
      third `_`-token, so `get_name` does not panic. */
  predicate NameOk(pin: GpioPin) {
    match FirstParam(pin.parameters, "GPIO_Pin")
    case None => true
    case Some(k) => |Split(pin.parameters[k].value, '_')| >= 3
  }

  /** `GPIOPin::get_name`: the port name followed by the third `_`-token of
      the first `GPIO_Pin` parameter; no name when there is no such parameter. */
  function PinName(pin: GpioPin): (r: Option<string>)
    requires NameOk(pin)
    ensures r.None? <==> forall k :: 0 <= k < |pin.parameters| ==> pin.parameters[k].name != "GPIO_Pin"
    ensures r.Some? ==> pin.portName <= r.value && '_' !in r.value[|pin.portName|..]
  {
    match FirstParam(pin.parameters, "GPIO_Pin")
    case None => None
    case Some(k) =>
      var num := Split(pin.parameters[k].value, '_')[2];
      assert (pin.portName + num)[|pin.portName|..] == num;
      Some(pin.portName + num)
  }

  /** For a first `GPIO_Pin` value `a_b_c` or `a_b_c_...`, the name is the
      port followed by `c`. */
  lemma PinNameSelects(pin: GpioPin, k: nat, a: string, b: string, c: string, rest: string)
    requires k < |pin.parameters| && pin.parameters[k].name == "GPIO_Pin"
    requires forall j :: 0 <= j < k ==> pin.parameters[j].name != "GPIO_Pin"
    requires '_' !in a && '_' !in b && '_' !in c
    requires rest == [] || rest[0] == '_'
    requires pin.parameters[k].value == a + "_" + b + "_" + c + rest
    ensures NameOk(pin)
    ensures PinName(pin) == Some(pin.portName + c)
  {
    var first := FirstParam(pin.parameters, "GPIO_Pin");
    assert first == Some(k);
    ThirdToken(a, b, c, rest);
  }

  lemma ThirdToken(a: string, b: string, c: string, rest: string)
    requires '_' !in a && '_' !in b && '_' !in c
    requires rest == [] || rest[0] == '_'
    ensures |Split(a + "_" + b + "_" + c + rest, '_')| >= 3
    ensures Split(a + "_" + b + "_" + c + rest, '_')[2] == c
  {
    var t := b + "_" + c + rest;
    var v := a + "_" + b + "_" + c + rest;
    assert v == a + ['_'] + t by {
      assert |v| == |a + ['_'] + t|;
      forall i | 0 <= i < |v| ensures v[i] == (a + ['_'] + t)[i] {
      }
    }
    SplitAfterPiece(a, '_', t);
    SecondToken(b, c, rest);
  }

  // ---------------------------------------------------------------------
  // Roles and their patterns

  /** The seven peripheral roles, in the order `get_af_modes` checks them. */
  datatype Role = Rx | Tx | Mosi | Miso | Sck | Scl | Sda

  const Roles: seq<Role> := [Rx, Tx, Mosi, Miso, Sck, Scl, Sda]

  function RoleIndex(role: Role): (i: nat)
    ensures i < |Roles| && Roles[i] == role
  {
    match role
    case Rx => 0
    case Tx => 1
    case Mosi => 2
    case Miso => 3
    case Sck => 4
    case Scl => 5
    case Sda => 6
  }

  /** The regexes of the seven roles, in test order. */
  const RolePatterns: seq<Regex> := [
    UsartRegex("_RX"),
    UsartRegex("_TX"),
    [Shape("SPI._MOSI")],
    [Shape("SPI._MISO")],
    [Shape("SPI._SCK")],
    [Shape("I2C._SCL")],
    [Shape("I2C._SDA")]
  ]

  /** The HAL trait a role is rendered with. */
  function RoleTrait(role: Role): string {
    match role
    case Rx => "RxPin"
    case Tx => "TxPin"
    case Mosi => "MosiPin"
    case Miso => "MisoPin"
    case Sck => "SckPin"
    case Scl => "SclPin"
    case Sda => "SdaPin"
  }

  predicate RoleMatches(role: Role, signal: string) {
    IsMatch(RolePatterns[RoleIndex(role)], signal)
  }

  /** Number of patterns among `roles` that a signal name matches. */
  function CountMatching(signal: string, roles: seq<Role>): (n: nat)
    ensures n <= |roles|
  {
    if |roles| == 0 then 0
    else (if RoleMatches(roles[0], signal) then 1 else 0) + CountMatching(signal, roles[1..])
  }

  /** Number of the seven patterns a signal name matches. */
  function MatchCount(signal: string): (n: nat)
    ensures n <= 7
  {
    CountMatching(signal, Roles)
  }

  /** Strictly increasing in test order (hence also free of repetitions). */
  ghost predicate Ascending(rs: seq<Role>) {
    forall i, j :: 0 <= i < j < |rs| ==> RoleIndex(rs[i]) < RoleIndex(rs[j])
  }

  lemma RolesAscending()
    ensures Ascending(Roles)
  {
    assert forall i :: 0 <= i < |Roles| ==> RoleIndex(Roles[i]) == i;
  }

  /** The roles among `roles` whose pattern matches, in the order given. */
  function MatchingRoles(signal: string, roles: seq<Role>): (r: seq<Role>)
    ensures |r| == CountMatching(signal, roles)
    ensures forall role :: role in r <==> role in roles && RoleMatches(role, signal)
    ensures Ascending(roles) ==> Ascending(r)
  {
    if |roles| == 0 then []
    else
      var rest := MatchingRoles(signal, roles[1..]);
      assert forall role :: role in roles <==> role == roles[0] || role in roles[1..];
      if RoleMatches(roles[0], signal) then
        FirstBelowRest(roles, rest);
        [roles[0]] + rest
      else rest
  }

  lemma FirstBelowRest(roles: seq<Role>, rest: seq<Role>)
    requires |roles| > 0
    requires forall role :: role in rest ==> role in roles[1..]
    ensures Ascending(roles) && Ascending(rest) ==> Ascending([roles[0]] + rest)
  {
    if Ascending(roles) && Ascending(rest) {
      forall j | 0 <= j < |rest| ensures RoleIndex(roles[0]) < RoleIndex(rest[j]) {
        assert rest[j] in roles[1..];
        var i :| 0 <= i < |roles[1..]| && roles[1..][i] == rest[j];
        assert roles[i + 1] == rest[j];
      }
      var r := [roles[0]] + rest;
      forall i, j | 0 <= i < j < |r| ensures RoleIndex(r[i]) < RoleIndex(r[j]) {
        if i > 0 {
          assert r[i] == rest[i - 1] && r[j] == rest[j - 1];
        } else {
          assert r[j] == rest[j - 1];
        }
      }
    }
  }

  /** The instance a signal belongs to: its text before the first underscore,
      or the whole name when it has none. */
  function InstancePrefix(signal: string): (r: string)
    ensures '_' !in r
    ensures r <= signal
    ensures |r| < |signal| ==> signal[|r|] == '_'
  {
    SplitFirstPiece(signal, '_');
    Split(signal, '_')[0]
  }

  // ---------------------------------------------------------------------
  // Classification

  /** One classified capability of a pin: the AF token, the role and the
      peripheral instance. */
  datatype Capability = Capability(af: string, role: Role, instance: string)

  /** The generated text `<af>: <Role>Pin<<instance>>`. */
  function Render(c: Capability): string {
    c.af + ": " + RoleTrait(c.role) + "<" + c.instance + ">"
  }

  /** Reading the selector of every signal that matches a pattern succeeds. */
  ghost predicate SelectorOk(sig: PinSignal) {
    forall role :: RoleMatches(role, sig.name) ==> HasAfToken(sig)
  }

  /** The capabilities of one signal: one per matching pattern, in test order,
      all with the signal's AF token and instance prefix. The selector is read
      only when some pattern matches. */
  function Classify(sig: PinSignal): (caps: seq<Capability>)
    requires SelectorOk(sig)
    ensures |caps| == MatchCount(sig.name)
    ensures forall role :: RoleMatches(role, sig.name) <==> exists k :: 0 <= k < |caps| && caps[k].role == role
    ensures forall i, j :: 0 <= i < j < |caps| ==> RoleIndex(caps[i].role) < RoleIndex(caps[j].role)
    ensures forall k :: 0 <= k < |caps| ==> HasAfToken(sig) && caps[k].af == AfValue(sig)
    ensures forall k :: 0 <= k < |caps| ==> caps[k].instance == InstancePrefix(sig.name)
  {
    var roles := MatchingRoles(sig.name, Roles);
    RolesAscending();
    if roles == [] then []
    else
      assert roles[0] in roles;
      Capabilities(AfValue(sig), roles, InstancePrefix(sig.name))
  }

  /** One capability per role, sharing the AF token and instance. */
  function Capabilities(af: string, roles: seq<Role>, instance: string): (caps: seq<Capability>)
    ensures |caps| == |roles|
    ensures forall k :: 0 <= k < |caps| ==> caps[k] == Capability(af, roles[k], instance)
    ensures forall role :: role in roles <==> exists k :: 0 <= k < |caps| && caps[k].role == role
  {
    var caps := seq(|roles|, i requires 0 <= i < |roles| => Capability(af, roles[i], instance));
    assert forall role :: role in roles ==> exists k :: 0 <= k < |caps| && caps[k].role == role by {
      forall role | role in roles ensures exists k :: 0 <= k < |caps| && caps[k].role == role {
        var k :| 0 <= k < |roles| && roles[k] == role;
        assert caps[k].role == role;
      }
    }
    caps
  }

  /** `SelectorOk` is what the classifier needs of a signal. */
  ghost predicate SignalsOk(pin: GpioPin) {
    pin.signals.Some? ==> forall k :: 0 <= k < |pin.signals.value| ==> SelectorOk(pin.signals.value[k])
  }

  /** The rendered capabilities of one signal. */
  function SignalModes(sig: PinSignal): (r: seq<string>)
    requires SelectorOk(sig)
  {
    var caps := Classify(sig);
    seq(|caps|, i requires 0 <= i < |caps| => Render(caps[i]))
  }

  /** One rendering per matching pattern. */
  lemma SignalModesCount(sig: PinSignal)
    requires SelectorOk(sig)
    ensures |SignalModes(sig)| == MatchCount(sig.name)
  {
  }

  /** The rendered capabilities of a list of signals, signal by signal. */
  function ModesOf(sigs: seq<PinSignal>): seq<string>
    requires forall k :: 0 <= k < |sigs| ==> SelectorOk(sigs[k])
  {
    if |sigs| == 0 then []
    else ModesOf(sigs[..|sigs| - 1]) + SignalModes(sigs[|sigs| - 1])
  }

  /** `GPIOPin::get_af_modes`: every match of every signal, not de-duplicated;
      a pin without signals has none. */
  function AfModes(pin: GpioPin): (r: seq<string>)
    requires SignalsOk(pin)
    ensures pin.signals.None? ==> r == []
  {
    match pin.signals
    case None => []
    case Some(sigs) => ModesOf(sigs)
  }
}

module PeripheralFacts {
  import opened Base
  import opened Text
  import opened Patterns
  import opened Peripheral

  /** Signal-major order: the modes of two runs of signals are the modes of
      the first run followed by those of the second. */
  lemma {:induction false} ModesOfAppend(a: seq<PinSignal>, b: seq<PinSignal>)
    requires forall k :: 0 <= k < |a| ==> SelectorOk(a[k])
    requires forall k :: 0 <= k < |b| ==> SelectorOk(b[k])
    ensures forall k :: 0 <= k < |a + b| ==> SelectorOk((a + b)[k])
    ensures ModesOf(a + b) == ModesOf(a) + ModesOf(b)
    decreases |b|
  {
    AppendOk(a, b);
    if |b| == 0 {
      assert a + b == a;
    } else {
      var b' := b[..|b| - 1];
      SnocAppend(a, b);
      AppendOk(a, b');
      ModesOfAppend(a, b');
    }
  }

  /** Dropping the last element of `a + b` drops the last element of `b`. */
  lemma SnocAppend<T>(a: seq<T>, b: seq<T>)
    requires |b| > 0
    ensures (a + b)[..|a + b| - 1] == a + b[..|b| - 1]
    ensures (a + b)[|a + b| - 1] == b[|b| - 1]
  {
  }

  lemma AppendOk(a: seq<PinSignal>, b: seq<PinSignal>)
    requires forall k :: 0 <= k < |a| ==> SelectorOk(a[k])
    requires forall k :: 0 <= k < |b| ==> SelectorOk(b[k])
    ensures forall k :: 0 <= k < |a + b| ==> SelectorOk((a + b)[k])
  {
    forall k | 0 <= k < |a + b| ensures SelectorOk((a + b)[k]) {
      if k < |a| { assert (a + b)[k] == a[k]; } else { assert (a + b)[k] == b[k - |a|]; }
    }
  }

  /** Sum over the signals of the number of patterns each one matches. */
  function TotalMatches(sigs: seq<PinSignal>): nat {
    if |sigs| == 0 then 0 else TotalMatches(sigs[..|sigs| - 1]) + MatchCount(sigs[|sigs| - 1].name)
  }

  /** The patterns are checked independently: one entry per (signal, matching
      pattern) pair. */
  lemma {:induction false} ModesOfLength(sigs: seq<PinSignal>)
    requires forall k :: 0 <= k < |sigs| ==> SelectorOk(sigs[k])
    ensures |ModesOf(sigs)| == TotalMatches(sigs)
  {
    if |sigs| > 0 {
      ModesOfLength(sigs[..|sigs| - 1]);
      SignalModesCount(sigs[|sigs| - 1]);
    }
  }

  /** `x` is the rendering of `sig` under some pattern its name matches. */
  ghost predicate Produces(sig: PinSignal, x: string) {
    exists role :: RoleMatches(role, sig.name) && HasAfToken(sig)
      && x == Render(Capability(AfValue(sig), role, InstancePrefix(sig.name)))
  }

  /** The modes of one signal are exactly its renderings under the patterns
      it matches. */
  lemma SignalModesMembers(sig: PinSignal, x: string)
    requires SelectorOk(sig)
    ensures x in SignalModes(sig) <==> Produces(sig, x)
  {
    var caps := Classify(sig);
    var modes := SignalModes(sig);
    if x in modes {
      var k :| 0 <= k < |modes| && modes[k] == x;
      assert RoleMatches(caps[k].role, sig.name);
    }
    if Produces(sig, x) {
      var role :| RoleMatches(role, sig.name) && HasAfToken(sig)
        && x == Render(Capability(AfValue(sig), role, InstancePrefix(sig.name)));
      var k :| 0 <= k < |caps| && caps[k].role == role;
      assert modes[k] == x;
    }
  }

  /** Every entry of a signal list's modes is the rendering of one of its
      signals under one pattern that signal matches, and each such rendering
      appears. */
  lemma {:induction false} ModesOfMembers(sigs: seq<PinSignal>, x: string)
    requires forall k :: 0 <= k < |sigs| ==> SelectorOk(sigs[k])
    ensures x in ModesOf(sigs) <==> exists j :: 0 <= j < |sigs| && Produces(sigs[j], x)
  {
    if |sigs| > 0 {
      var init := sigs[..|sigs| - 1];
      var last := sigs[|sigs| - 1];
      ModesOfMembers(init, x);
      SignalModesMembers(last, x);
      assert forall j :: 0 <= j < |init| ==> init[j] == sigs[j];
      if exists j :: 0 <= j < |sigs| && Produces(sigs[j], x) {
        var j :| 0 <= j < |sigs| && Produces(sigs[j], x);
        if j < |sigs| - 1 {
          assert Produces(init[j], x);
        }
      }
    }
  }

  lemma {:induction false} NoneCounted(signal: string, roles: seq<Role>)
    requires forall role :: !RoleMatches(role, signal)
    ensures CountMatching(signal, roles) == 0
  {
    if |roles| > 0 {
      NoneCounted(signal, roles[1..]);
    }
  }

  /** A signal that matches exactly one pattern renders as one entry. */
  lemma SingleRole(sig: PinSignal, role: Role)
    requires SelectorOk(sig)
    requires RoleMatches(role, sig.name)
    requires forall other :: other != role ==> !RoleMatches(other, sig.name)
    ensures HasAfToken(sig)
    ensures SignalModes(sig) == [Render(Capability(AfValue(sig), role, InstancePrefix(sig.name)))]
  {
    var caps := Classify(sig);
    assert |caps| == 1 by {
      RolesAscending();
      OneCounted(sig.name, Roles, role);
      assert role in Roles by { assert Roles[RoleIndex(role)] == role; }
    }
    var k :| 0 <= k < |caps| && caps[k].role == role;
    assert caps[0] == Capability(AfValue(sig), role, InstancePrefix(sig.name));
    var modes := SignalModes(sig);
    assert |modes| == 1 && modes[0] == Render(caps[0]);
  }

  lemma {:induction false} OneCounted(signal: string, roles: seq<Role>, role: Role)
    requires Ascending(roles)
    requires forall other :: other != role ==> !RoleMatches(other, signal)
    requires RoleMatches(role, signal)
    ensures CountMatching(signal, roles) == (if role in roles then 1 else 0)
  {
    if |roles| > 0 {
      OneCounted(signal, roles[1..], role);
      if roles[0] == role {
        assert role !in roles[1..] by {
          forall i | 0 <= i < |roles[1..]| ensures roles[1..][i] != role {
            assert RoleIndex(roles[0]) < RoleIndex(roles[i + 1]);
          }
        }
      } else {
        assert role in roles <==> role in roles[1..];
      }
    }
  }

  /** A signal that matches no pattern contributes nothing, whatever its
      selector: the selector is never read. */
  lemma UnmatchedSignalIgnored(name: string, selector: SpecificParameter)
    requires forall role :: !RoleMatches(role, name)
    ensures SelectorOk(PinSignal(name, selector))
    ensures SignalModes(PinSignal(name, selector)) == []
  {
    NoneCounted(name, Roles);
  }

  /** Every alternative of the role's regex contains the literal `c`. */
  predicate Needs(role: Role, c: char) {
    forall k :: 0 <= k < |RolePatterns[RoleIndex(role)]| ==> Lit(c) in RolePatterns[RoleIndex(role)][k]
  }

  /** The SPI patterns all spell `SPI`, the I2C patterns `I2C`. */
  lemma BusLiterals()
    ensures Needs(Mosi, 'P') && Needs(Miso, 'P') && Needs(Sck, 'P')
    ensures Needs(Scl, 'I') && Needs(Sda, 'I')
  {
    assert Shape("SPI._MOSI")[1] == Lit('P');
    assert Shape("SPI._MISO")[1] == Lit('P');
    assert Shape("SPI._SCK")[1] == Lit('P');
    assert Shape("I2C._SCL")[0] == Lit('I');
    assert Shape("I2C._SDA")[0] == Lit('I');
  }

  /** A role whose every alternative needs a character the name lacks does
      not match it. */
  lemma LiteralRulesOut(role: Role, name: string, c: char)
    requires Needs(role, c)
    requires c !in name
    ensures !RoleMatches(role, name)
  {
    var re := RolePatterns[RoleIndex(role)];
    IsMatchSpec(re, name);
    forall k | 0 <= k < |re| ensures !Search(name, re[k]) {
      AbsentLiteral(name, re[k], c);
    }
  }
}

/** The classifier on the receive line of a USART with a one-digit number. */
module PeripheralExamples {
  import opened Text
  import opened Patterns
  import opened Peripheral
  import opened PeripheralFacts

  function UsartRx(n: char): string {
    "USART" + [n] + "_RX"
  }

  /** `USART<n>_RX` over `GPIO_AF5_USART<n>` yields exactly one capability. */
  lemma UsartReceiveExample(n: char)
    requires IsDigit(n)
    ensures SelectorOk(PinSignal(UsartRx(n), SpecificParameter("GPIO_AF", "GPIO_AF5_USART" + [n])))
    ensures SignalModes(PinSignal(UsartRx(n), SpecificParameter("GPIO_AF", "GPIO_AF5_USART" + [n])))
         == ["AF5: RxPin<USART" + [n] + ">"]
  {
    var sig := PinSignal(UsartRx(n), SpecificParameter("GPIO_AF", "GPIO_AF5_USART" + [n]));
    SelectorAf5(n);
    InstanceOfReceive(n);
    OnlyReceive(n);
    SingleRole(sig, Rx);
    RenderReceive(n);
  }

  lemma RenderReceive(n: char)
    ensures Render(Capability("AF5", Rx, "USART" + [n])) == "AF5: RxPin<USART" + [n] + ">"
  {
  }

  lemma SelectorAf5(n: char)
    requires IsDigit(n)
    ensures HasAfToken(PinSignal(UsartRx(n), SpecificParameter("GPIO_AF", "GPIO_AF5_USART" + [n])))
    ensures AfValue(PinSignal(UsartRx(n), SpecificParameter("GPIO_AF", "GPIO_AF5_USART" + [n]))) == "AF5"
  {
    AfValueSelects(UsartRx(n), "GPIO_AF", "GPIO", "AF5", "_USART" + [n]);
    assert "GPIO" + "_" + "AF5" + ("_USART" + [n]) == "GPIO_AF5_USART" + [n];
  }

  lemma InstanceOfReceive(n: char)
    requires IsDigit(n)
    ensures InstancePrefix(UsartRx(n)) == "USART" + [n]
  {
    FirstToken("USART" + [n], "_RX");
    assert UsartRx(n) == ("USART" + [n]) + "_RX";
  }

  /** The name matches the receive pattern and no other. */
  lemma OnlyReceive(n: char)
    requires IsDigit(n)
    ensures RoleMatches(Rx, UsartRx(n))
    ensures forall other :: other != Rx ==> !RoleMatches(other, UsartRx(n))
  {
    var s := UsartRx(n);
    MatchesReceive(n);
    NotTransmit(n);
    assert 'P' !in s && 'I' !in s;
    BusLiterals();
    LiteralRulesOut(Mosi, s, 'P');
    LiteralRulesOut(Miso, s, 'P');
    LiteralRulesOut(Sck, s, 'P');
    LiteralRulesOut(Scl, s, 'I');
    LiteralRulesOut(Sda, s, 'I');
  }

  lemma MatchesReceive(n: char)
    requires IsDigit(n)
    ensures RoleMatches(Rx, UsartRx(n))
  {
    var s := UsartRx(n);
    var p := Shape("USART._RX");
    assert "USART." + "_RX" == "USART._RX";
    assert ShapeAt(s, 0, p);
    SearchSpec(s, p);
    IsMatchSpec(UsartRegex("_RX"), s);
    assert UsartRegex("_RX")[3] == p;
  }

  /** `_T` never occurs in the name, and every transmit shape holds it. */
  lemma NotTransmit(n: char)
    requires IsDigit(n)
    ensures !RoleMatches(Tx, UsartRx(n))
  {
    var s := UsartRx(n);
    UsartLowPowerIrrelevant("_TX", s);
    assert "UART." + "_TX" == "UART._TX";
    assert "USART." + "_TX" == "USART._TX";
    forall j | 0 <= j < |s| - 1 ensures s[j] != '_' || s[j + 1] != 'T' {
    }
    AbsentPair(s, Shape("UART._TX"), 5, '_', 'T');
    AbsentPair(s, Shape("USART._TX"), 6, '_', 'T');
  }
}

=== FILE: pinmodes.dfy ===
/** `render_pin_modes`: the pins of one GPIO descriptor, keyed by their
    derived names, each with its sorted capability list, rendered as the
    lines of a `pins!` invocation. */
module PinModes {
  import opened Base
  import opened Sorting
  import opened Peripheral

  /** Deriving the name does not panic, and neither does classifying the
      signals of a pin that has a name (an unnamed pin is never classified). */
  ghost predicate PinOk(pin: GpioPin) {
    NameOk(pin) && (PinName(pin).Some? ==> SignalsOk(pin))
  }

  ghost predicate PinsOk(pins: seq<GpioPin>) {
    forall k :: 0 <= k < |pins| ==> PinOk(pins[k])
  }

  /** One pin of the table: its name and its capability list. */
  datatype PinEntry = PinEntry(name: string, modes: seq<string>)

  /** What one iteration of the insertion loop inserts: nothing for a pin
      without a name, else the name with the pin's capabilities. */
  function Slot(pin: GpioPin): (r: Option<PinEntry>)
    requires PinOk(pin)
    ensures r.None? <==> PinName(pin).None?
  {
    match PinName(pin)
    case None => None
    case Some(n) => Some(PinEntry(n, AfModes(pin)))
  }

  lemma SlotNamed(pin: GpioPin, n: string)
    requires PinOk(pin)
    ensures Slot(pin).Some? && Slot(pin).value.name == n <==> PinName(pin) == Some(n)
    ensures Slot(pin).Some? ==> Slot(pin).value.modes == AfModes(pin)
  {
  }

  function Slots(pins: seq<GpioPin>): (r: seq<Option<PinEntry>>)
    requires PinsOk(pins)
    ensures |r| == |pins|
    ensures forall k :: 0 <= k < |pins| ==> r[k] == Slot(pins[k])
  {
    seq(|pins|, k requires 0 <= k < |pins| && PinsOk(pins) => Slot(pins[k]))
  }

  // ---------------------------------------------------------------------
  // The pin map

  /** The map filled by the insertion loop: skipped slots leave it alone and
      a later entry replaces an earlier one of the same name. */
  function EntryMap(slots: seq<Option<PinEntry>>): (m: map<string, seq<string>>)
    ensures forall n :: n in m ==> exists k :: 0 <= k < |slots| && slots[k].Some? && slots[k].value.name == n
    ensures forall k :: 0 <= k < |slots| && slots[k].Some? ==> slots[k].value.name in m
    ensures |m| <= |slots|
  {
    if |slots| == 0 then map[]
    else
      var init := EntryMap(slots[..|slots| - 1]);
      match slots[|slots| - 1]
      case None => init
      case Some(e) => init[e.name := e.modes]
  }

  /** `render_pin_modes`' pin map over the pins of a descriptor. */
  function PinMap(pins: seq<GpioPin>): (m: map<string, seq<string>>)
    requires PinsOk(pins)
    ensures forall n :: n in m ==> exists k :: 0 <= k < |pins| && PinName(pins[k]) == Some(n)
    ensures forall k :: 0 <= k < |pins| && PinName(pins[k]).Some? ==> PinName(pins[k]).value in m
    ensures |m| <= |pins|
  {
    var slots := Slots(pins);
    var m := EntryMap(slots);
    assert forall n :: n in m ==> exists k :: 0 <= k < |pins| && PinName(pins[k]) == Some(n) by {
      forall n | n in m ensures exists k :: 0 <= k < |pins| && PinName(pins[k]) == Some(n) {
        var k :| 0 <= k < |slots| && slots[k].Some? && slots[k].value.name == n;
        assert PinName(pins[k]) == Some(n);
      }
    }
    m
  }

  /** Reference definition: the index of the last filled slot named `n`. */
  function LastNamed(slots: seq<Option<PinEntry>>, n: string): (r: Option<nat>)
    ensures r.None? <==> forall k :: 0 <= k < |slots| ==> !(slots[k].Some? && slots[k].value.name == n)
    ensures r.Some? ==> r.value < |slots| && slots[r.value].Some? && slots[r.value].value.name == n
    ensures r.Some? ==> forall k :: r.value < k < |slots| ==> !(slots[k].Some? && slots[k].value.name == n)
  {
    if |slots| == 0 then None
    else if slots[|slots| - 1].Some? && slots[|slots| - 1].value.name == n then Some(|slots| - 1)
    else LastNamed(slots[..|slots| - 1], n)
  }

  /** The entry of every name is the capability list of the last pin that
      carries that name. */
  lemma {:induction false} LastPinWins(slots: seq<Option<PinEntry>>, n: string)
    ensures n in EntryMap(slots) <==> LastNamed(slots, n).Some?
    ensures n in EntryMap(slots) ==> EntryMap(slots)[n] == slots[LastNamed(slots, n).value].value.modes
  {
    if |slots| > 0 {
      var init := slots[..|slots| - 1];
      LastPinWins(init, n);
      if !(slots[|slots| - 1].Some? && slots[|slots| - 1].value.name == n) {
        assert LastNamed(slots, n) == LastNamed(init, n);
      }
    }
  }

  /** On the pins: a named pin's entry holds the capabilities of the last pin
      with that name. */
  lemma LastPinWinsOnPins(pins: seq<GpioPin>, n: string, k: int)
    requires PinsOk(pins)
    requires 0 <= k < |pins| && PinName(pins[k]) == Some(n)
    requires forall j :: k < j < |pins| ==> PinName(pins[j]) != Some(n)
    ensures n in PinMap(pins) && PinMap(pins)[n] == AfModes(pins[k])
  {
    var slots := Slots(pins);
    SlotNamed(pins[k], n);
    forall j | k < j < |slots| ensures !(slots[j].Some? && slots[j].value.name == n) {
      SlotNamed(pins[j], n);
    }
    LastSlotWins(slots, n, k);
  }

  lemma LastSlotWins(slots: seq<Option<PinEntry>>, n: string, k: int)
    requires 0 <= k < |slots| && slots[k].Some? && slots[k].value.name == n
    requires forall j :: k < j < |slots| ==> !(slots[j].Some? && slots[j].value.name == n)
    ensures n in EntryMap(slots) && EntryMap(slots)[n] == slots[k].value.modes
  {
    LastPinWins(slots, n);
    var r := LastNamed(slots, n);
    assert r.value <= k;
    assert r.value >= k;
  }

  // ---------------------------------------------------------------------
  // The sorted table

  /** Orders entries by name only. */
  function ByName(cmp: (string, string) -> bool): (le: (PinEntry, PinEntry) -> bool)
    ensures forall a, b :: le(a, b) == cmp(a.name, b.name)
  {
    (a: PinEntry, b: PinEntry) => cmp(a.name, b.name)
  }

  lemma ByNamePreorder(cmp: (string, string) -> bool)
    requires TotalPreorder(cmp)
    ensures TotalPreorder(ByName(cmp))
  {
    var le := ByName(cmp);
    forall a, b, c | le(a, b) && le(b, c) ensures le(a, c) {
      assert cmp(a.name, b.name) && cmp(b.name, c.name);
    }
  }

  /** The entry of name `n`: the name with its capability list sorted. */
  function Attach(m: map<string, seq<string>>, cmp: (string, string) -> bool): (f: string -> PinEntry)
    requires TotalPreorder(cmp)
    ensures forall n :: f(n).name == n
    ensures forall n :: n in m ==> Sorted(f(n).modes, cmp) && multiset(f(n).modes) == multiset(m[n])
  {
    n => PinEntry(n, if n in m then SortBy(m[n], cmp) else [])
  }

  /** The table as built: the map's entries in hash-map order `order`, each
      capability list sorted with `cmp`, then the entries sorted by name with
      `cmp` (`compare_str`, kept abstract). */
  function PinTable(m: map<string, seq<string>>, cmp: (string, string) -> bool, order: seq<string>): (t: seq<PinEntry>)
    requires TotalPreorder(cmp)
    requires IsEnumeration(order, m.Keys)
    ensures Sorted(t, ByName(cmp))
    ensures |t| == |m|
    ensures forall i :: 0 <= i < |t| ==> EntryOf(m, cmp, t[i])
    ensures forall n :: n in m ==> exists i :: 0 <= i < |t| && t[i].name == n
    ensures forall i, j :: 0 <= i < j < |t| ==> t[i].name != t[j].name
  {
    var entries := Apply(Attach(m, cmp), order);
    ByNamePreorder(cmp);
    var t := SortBy(entries, ByName(cmp));
    TableFacts(m, cmp, order, entries, t);
    t
  }

  /** Every entry belongs to a key of `m` and holds its sorted list. */
  ghost predicate EntryOf(m: map<string, seq<string>>, cmp: (string, string) -> bool, e: PinEntry) {
    e.name in m && Sorted(e.modes, cmp) && multiset(e.modes) == multiset(m[e.name])
  }

  /** What sorting keeps of the unsorted entries. */
  lemma TableFacts(m: map<string, seq<string>>, cmp: (string, string) -> bool, order: seq<string>, entries: seq<PinEntry>, t: seq<PinEntry>)
    requires IsEnumeration(order, m.Keys)
    requires |entries| == |order|
    requires forall i :: 0 <= i < |order| ==> entries[i].name == order[i]
    requires forall i :: 0 <= i < |order| ==> EntryOf(m, cmp, entries[i])
    requires multiset(t) == multiset(entries)
    ensures |t| == |m|
    ensures forall i :: 0 <= i < |t| ==> EntryOf(m, cmp, t[i])
    ensures forall n :: n in m ==> exists i :: 0 <= i < |t| && t[i].name == n
    ensures forall i, j :: 0 <= i < j < |t| ==> t[i].name != t[j].name
  {
    EnumerationSize(order, m.Keys);
    assert |t| == |entries| by {
      assert |multiset(t)| == |t| && |multiset(entries)| == |entries|;
    }
    forall i | 0 <= i < |t| ensures EntryOf(m, cmp, t[i]) {
      assert t[i] in multiset(entries);
    }
    forall n | n in m ensures exists i :: 0 <= i < |t| && t[i].name == n {
      var k :| 0 <= k < |order| && order[k] == n;
      assert entries[k] in multiset(t);
      var i :| 0 <= i < |t| && t[i] == entries[k];
    }
    forall i, j | 0 <= i < j < |t| ensures t[i].name != t[j].name {
      DistinctNames(order, entries, t, i, j);
    }
  }

  /** The entries are distinct because their names are, so a rearrangement
      of them has distinct names too. */
  lemma DistinctNames(order: seq<string>, entries: seq<PinEntry>, t: seq<PinEntry>, i: int, j: int)
    requires forall a, b :: 0 <= a < b < |order| ==> order[a] != order[b]
    requires |entries| == |order|
    requires forall a :: 0 <= a < |order| ==> entries[a].name == order[a]
    requires multiset(t) == multiset(entries)
    requires 0 <= i < j < |t|
    ensures t[i].name != t[j].name
  {
    DistinctRearranged(entries, t);
    assert t[i] in multiset(entries) && t[j] in multiset(entries);
    var a :| 0 <= a < |entries| && entries[a] == t[i];
    var b :| 0 <= b < |entries| && entries[b] == t[j];
    assert a != b;
    assert order[a] != order[b];
  }

  /** The table is the sorted key list with the entries attached, so under a
      total order on names it does not depend on the hash-map order. */
  lemma TableIgnoresMapOrder(m: map<string, seq<string>>, cmp: (string, string) -> bool, o1: seq<string>, o2: seq<string>)
    requires TotalOrder(cmp)
    requires IsEnumeration(o1, m.Keys) && IsEnumeration(o2, m.Keys)
    ensures PinTable(m, cmp, o1) == PinTable(m, cmp, o2)
  {
    var f := Attach(m, cmp);
    ByNamePreorder(cmp);
    SortApply(o1, f, cmp, ByName(cmp));
    SortApply(o2, f, cmp, ByName(cmp));
    EnumerationsPermute(o1, o2, m.Keys);
    SortIgnoresInputOrder(o1, o2, cmp);
  }

  // ---------------------------------------------------------------------
  // Rendering

  /** The lines of one entry: none for an empty list, `n => {x},` for one
      capability, and a block with one line per capability otherwise. */
  function EntryLines(e: PinEntry): (r: seq<string>)
    ensures |e.modes| == 0 ==> r == []
    ensures |e.modes| == 1 ==> |r| == 1
    ensures |e.modes| > 1 ==> |r| == |e.modes| + 2
  {
    if |e.modes| == 0 then []
    else if |e.modes| == 1 then ["    " + e.name + " => {" + e.modes[0] + "},"]
    else ["    " + e.name + " => {"] + Apply(ModeLine, e.modes) + ["    },"]
  }

  /** A capability line of a block. */
  function ModeLine(x: string): string {
    "        " + x + ","
  }

  /** Reads the capabilities back from the lines of the entry named `name`. */
  function ReadEntry(name: string, lines: seq<string>): seq<string> {
    var head := "    " + name + " => {";
    if |lines| == 1 then
      if |head| + 2 <= |lines[0]| then [lines[0][|head|..|lines[0]| - 2]] else []
    else if |lines| < 2 then []
    else Apply(ReadModeLine, lines[1..|lines| - 1])
  }

  function ReadModeLine(l: string): string {
    if 9 <= |l| then l[8..|l| - 1] else l
  }

  /** The rendering loses nothing: the capabilities of an entry can be read
      back from its lines. */
  lemma EntryRoundTrip(e: PinEntry)
    ensures ReadEntry(e.name, EntryLines(e)) == e.modes
  {
    var head := "    " + e.name + " => {";
    var lines := EntryLines(e);
    if |e.modes| == 1 {
      var l := head + e.modes[0] + "},";
      assert lines[0] == l;
      assert l[|head|..|l| - 2] == e.modes[0];
    } else if |e.modes| > 1 {
      var inner := lines[1..|lines| - 1];
      assert inner == Apply(ModeLine, e.modes);
      forall k | 0 <= k < |e.modes| ensures ReadModeLine(inner[k]) == e.modes[k] {
        var l := ModeLine(e.modes[k]);
        assert l[8..|l| - 1] == e.modes[k];
      }
    }
  }

  /** The lines of the entries, one after another. */
  function BodyLines(t: seq<PinEntry>): seq<string> {
    if |t| == 0 then [] else EntryLines(t[0]) + BodyLines(t[1..])
  }

  /** The entries that produce lines. */
  function Printed(t: seq<PinEntry>): (r: seq<PinEntry>)
    ensures |r| <= |t|
    ensures forall e :: e in r <==> e in t && |e.modes| > 0
  {
    if |t| == 0 then []
    else if |t[0].modes| == 0 then Printed(t[1..])
    else [t[0]] + Printed(t[1..])
  }

  /** Entries with empty lists contribute nothing: the body is the body of
      the printed entries alone. */
  lemma {:induction false} EmptyEntriesSilent(t: seq<PinEntry>)
    ensures BodyLines(t) == BodyLines(Printed(t))
  {
    if |t| > 0 {
      EmptyEntriesSilent(t[1..]);
      if |t[0].modes| > 0 {
        BodyCons(t[0], Printed(t[1..]));
      } else {
        BodySkip(t);
      }
    }
  }

  lemma BodySkip(t: seq<PinEntry>)
    requires |t| > 0 && |t[0].modes| == 0
    ensures BodyLines(t) == BodyLines(t[1..])
  {
    assert EntryLines(t[0]) == [];
  }

  lemma BodyCons(e: PinEntry, t: seq<PinEntry>)
    ensures BodyLines([e] + t) == EntryLines(e) + BodyLines(t)
  {
    assert ([e] + t)[1..] == t;
  }

  /** The body of two runs of entries is the body of the first followed by
      the body of the second. */
  lemma {:induction false} BodyAppend(a: seq<PinEntry>, b: seq<PinEntry>)
    ensures BodyLines(a + b) == BodyLines(a) + BodyLines(b)
  {
    if |a| > 0 {
      assert (a + b)[1..] == a[1..] + b;
      BodyAppend(a[1..], b);
      assert BodyLines(a + b) == EntryLines(a[0]) + (BodyLines(a[1..]) + BodyLines(b));
    } else {
      assert a + b == b;
    }
  }

  /** `render_pin_modes`: the table between `pins! {` and `}`. */
  function RenderPinModes(ip: IpGpio, cmp: (string, string) -> bool, order: seq<string>): (lines: seq<string>)
    requires PinsOk(ip.pins)
    requires TotalPreorder(cmp)
    requires IsEnumeration(order, PinMap(ip.pins).Keys)
    ensures |lines| >= 2
    ensures lines[0] == "pins! {"
    ensures lines[|lines| - 1] == "}"
    ensures |Printed(PinTable(PinMap(ip.pins), cmp, order))| <= |ip.pins|
  {
    var m := PinMap(ip.pins);
    var t := PinTable(m, cmp, order);
    assert |Printed(t)| <= |t| == |m| <= |ip.pins|;
    ["pins! {"] + BodyLines(t) + ["}"]
  }
}

=== FILE: sorting.dfy ===
/** Stable sorting under a comparator, adjacent de-duplication, and the fact
    that under a total order the sorted result does not depend on the order
    of the input. */
module Sorting {
  import opened Base

  ghost predicate TotalPreorder<T(!new)>(le: (T, T) -> bool) {
    && (forall x, y :: le(x, y) || le(y, x))
    && (forall x, y, z :: le(x, y) && le(y, z) ==> le(x, z))
  }

  ghost predicate TotalOrder<T(!new)>(le: (T, T) -> bool) {
    && TotalPreorder(le)
    && (forall x, y :: le(x, y) && le(y, x) ==> x == y)
  }

  ghost predicate Sorted<T>(xs: seq<T>, le: (T, T) -> bool) {
    forall i, j :: 0 <= i < j < |xs| ==> le(xs[i], xs[j])
  }

  /** Puts `x` in front of the first element it is not above. */
  function Insert<T>(x: T, xs: seq<T>, le: (T, T) -> bool): (r: seq<T>)
    ensures multiset(r) == multiset(xs) + multiset{x}
  {
    if |xs| == 0 then [x]
    else if le(x, xs[0]) then [x] + xs
    else
      assert xs == [xs[0]] + xs[1..];
      [xs[0]] + Insert(x, xs[1..], le)
  }

  lemma {:induction false} InsertSorted<T(!new)>(x: T, xs: seq<T>, le: (T, T) -> bool)
    requires TotalPreorder(le)
    requires Sorted(xs, le)
    ensures Sorted(Insert(x, xs, le), le)
  {
    if |xs| > 0 && !le(x, xs[0]) {
      var rest := Insert(x, xs[1..], le);
      InsertSorted(x, xs[1..], le);
      forall j | 0 <= j < |rest| ensures le(xs[0], rest[j]) {
        assert rest[j] in multiset(rest);
        if rest[j] != x {
          assert rest[j] in multiset(xs[1..]);
        }
      }
    }
  }

  /** A stable sort (the model of Rust's `sort` / `sort_by`): the result is
      sorted and holds the same elements, with the same multiplicities. */
  function SortBy<T(!new)>(xs: seq<T>, le: (T, T) -> bool): (r: seq<T>)
    requires TotalPreorder(le)
    ensures Sorted(r, le)
    ensures multiset(r) == multiset(xs)
  {
    if |xs| == 0 then []
    else
      assert xs == [xs[0]] + xs[1..];
      InsertSorted(xs[0], SortBy(xs[1..], le), le);
      Insert(xs[0], SortBy(xs[1..], le), le)
  }

  /** The elements of `xs` that `le` cannot tell apart from `e`, in order. */
  function Equivalents<T>(xs: seq<T>, e: T, le: (T, T) -> bool): seq<T> {
    if |xs| == 0 then []
    else (if le(xs[0], e) && le(e, xs[0]) then [xs[0]] else []) + Equivalents(xs[1..], e, le)
  }

  /** Inserting `x` puts it in front of every element equivalent to it. */
  lemma InsertStable<T(!new)>(x: T, xs: seq<T>, e: T, le: (T, T) -> bool)
    requires TotalPreorder(le)
    ensures Equivalents(Insert(x, xs, le), e, le) == (if le(x, e) && le(e, x) then [x] else []) + Equivalents(xs, e, le)
  {
    forall i | 0 <= i < |xs| && le(x, e) && le(e, x) && le(xs[i], e) && le(e, xs[i]) ensures le(x, xs[i]) {
      assert le(x, e) && le(e, xs[i]);
    }
    InsertKeepsEquivalents(x, xs, e, le);
  }

  /** The induction behind `InsertStable`, given the one consequence of
      transitivity it needs: `x` is not above an element equivalent to it. */
  lemma {:induction false} InsertKeepsEquivalents<T>(x: T, xs: seq<T>, e: T, le: (T, T) -> bool)
    requires forall i :: 0 <= i < |xs| && le(x, e) && le(e, x) && le(xs[i], e) && le(e, xs[i]) ==> le(x, xs[i])
    ensures Equivalents(Insert(x, xs, le), e, le) == (if le(x, e) && le(e, x) then [x] else []) + Equivalents(xs, e, le)
  {
    if |xs| == 0 {
      assert [x][1..] == [];
    } else if le(x, xs[0]) {
      assert ([x] + xs)[1..] == xs;
    } else {
      var rest := Insert(x, xs[1..], le);
      assert forall i :: 0 <= i < |xs[1..]| ==> xs[1..][i] == xs[i + 1];
      InsertKeepsEquivalents(x, xs[1..], e, le);
      var cx := if le(x, e) && le(e, x) then [x] else [];
      var cy := if le(xs[0], e) && le(e, xs[0]) then [xs[0]] else [];
      assert Equivalents(Insert(x, xs, le), e, le) == cy + Equivalents(rest, e, le) by {
        assert Insert(x, xs, le) == [xs[0]] + rest;
        assert ([xs[0]] + rest)[1..] == rest;
      }
      assert !(le(x, e) && le(e, x) && le(xs[0], e) && le(e, xs[0]));
      assert Equivalents(xs, e, le) == cy + Equivalents(xs[1..], e, le);
      SwapEmpty(cx, cy, Equivalents(xs[1..], e, le));
    }
  }

  lemma SwapEmpty<T>(a: seq<T>, b: seq<T>, t: seq<T>)
    requires a == [] || b == []
    ensures b + (a + t) == a + (b + t)
  {
    if a == [] {
      assert a + t == t && a + (b + t) == b + t;
    } else {
      assert b + (a + t) == a + t && b + t == t;
    }
  }

  /** `sort_by` is stable: the elements equivalent to any `e` come out in
      the order they went in. */
  lemma {:induction false} SortStable<T(!new)>(xs: seq<T>, e: T, le: (T, T) -> bool)
    requires TotalPreorder(le)
    ensures Equivalents(SortBy(xs, le), e, le) == Equivalents(xs, e, le)
  {
    if |xs| > 0 {
      SortStable(xs[1..], e, le);
      InsertStable(xs[0], SortBy(xs[1..], le), e, le);
    }
  }

  /** Under a total order, two sorted arrangements of the same elements are
      equal: sorting forgets the input order. */
  lemma {:induction false} SortedUnique<T(!new)>(a: seq<T>, b: seq<T>, le: (T, T) -> bool)
    requires TotalOrder(le)
    requires Sorted(a, le) && Sorted(b, le)
    requires multiset(a) == multiset(b)
    ensures a == b
  {
    if |a| == 0 {
      assert |b| == |multiset(b)| == 0;
    } else {
      HeadsEqual(a, b, le);
      TailsRearranged(a, b);
      SortedTail(a, le);
      SortedTail(b, le);
      SortedUnique(a[1..], b[1..], le);
      HeadTailEqual(a, b);
    }
  }

  lemma TailsRearranged<T>(a: seq<T>, b: seq<T>)
    requires multiset(a) == multiset(b)
    requires |a| > 0 && |b| > 0 && a[0] == b[0]
    ensures multiset(a[1..]) == multiset(b[1..])
  {
    RemoveAt(a, b, 0);
    assert b[..0] + b[1..] == b[1..];
  }

  lemma HeadTailEqual<T>(a: seq<T>, b: seq<T>)
    requires |a| > 0 && |b| > 0 && a[0] == b[0] && a[1..] == b[1..]
    ensures a == b
  {
    assert a == [a[0]] + a[1..];
    assert b == [b[0]] + b[1..];
  }

  lemma HeadsEqual<T(!new)>(a: seq<T>, b: seq<T>, le: (T, T) -> bool)
    requires TotalOrder(le)
    requires Sorted(a, le) && Sorted(b, le)
    requires multiset(a) == multiset(b) && |a| > 0
    ensures |b| > 0 && a[0] == b[0]
  {
    assert |b| == |multiset(b)| == |multiset(a)| == |a|;
    HeadIsLeast(a, b[0], le);
    HeadIsLeast(b, a[0], le);
  }

  lemma SortedTail<T>(a: seq<T>, le: (T, T) -> bool)
    requires Sorted(a, le) && |a| > 0
    ensures Sorted(a[1..], le)
  {
    forall i, j | 0 <= i < j < |a[1..]| ensures le(a[1..][i], a[1..][j]) {
      assert a[1..][i] == a[i + 1] && a[1..][j] == a[j + 1];
    }
  }

  lemma HeadIsLeast<T(!new)>(a: seq<T>, x: T, le: (T, T) -> bool)
    requires TotalPreorder(le)
    requires Sorted(a, le)
    requires x in multiset(a)
    ensures le(a[0], x)
  {
    var i :| 0 <= i < |a| && a[i] == x;
    if i == 0 {
      assert le(x, x) || le(x, x);
    }
  }

  /** Sorting two rearrangements of one sequence gives one result. */
  lemma SortIgnoresInputOrder<T(!new)>(xs: seq<T>, ys: seq<T>, le: (T, T) -> bool)
    requires TotalOrder(le)
    requires multiset(xs) == multiset(ys)
    ensures SortBy(xs, le) == SortBy(ys, le)
  {
    SortedUnique(SortBy(xs, le), SortBy(ys, le), le);
  }

  /** Applies `f` to every element. */
  function Apply<A, B>(f: A -> B, xs: seq<A>): (r: seq<B>)
    ensures |r| == |xs|
    ensures forall i :: 0 <= i < |xs| ==> r[i] == f(xs[i])
  {
    seq(|xs|, i requires 0 <= i < |xs| => f(xs[i]))
  }

  /** Sorting records by a key is sorting the keys and attaching the
      records afterwards, when `f` attaches a record to its key. */
  lemma {:induction false} SortApply<A(!new), B(!new)>(xs: seq<A>, f: A -> B, le: (A, A) -> bool, leB: (B, B) -> bool)
    requires TotalPreorder(le) && TotalPreorder(leB)
    requires forall x, y :: leB(f(x), f(y)) == le(x, y)
    ensures SortBy(Apply(f, xs), leB) == Apply(f, SortBy(xs, le))
  {
    if |xs| > 0 {
      assert Apply(f, xs)[1..] == Apply(f, xs[1..]);
      SortApply(xs[1..], f, le, leB);
      InsertApply(xs[0], SortBy(xs[1..], le), f, le, leB);
    }
  }

  lemma {:induction false} InsertApply<A, B>(x: A, xs: seq<A>, f: A -> B, le: (A, A) -> bool, leB: (B, B) -> bool)
    requires forall x, y :: leB(f(x), f(y)) == le(x, y)
    ensures Insert(f(x), Apply(f, xs), leB) == Apply(f, Insert(x, xs, le))
  {
    if |xs| > 0 && !le(x, xs[0]) {
      InsertApply(x, xs[1..], f, le, leB);
      ApplyCons(f, xs[0], xs[1..]);
      ApplyCons(f, xs[0], Insert(x, xs[1..], le));
      assert xs == [xs[0]] + xs[1..];
    } else if |xs| > 0 {
      ApplyCons(f, x, xs);
    } else {
      ApplyCons(f, x, xs);
    }
  }

  lemma ApplyCons<A, B>(f: A -> B, y: A, ys: seq<A>)
    ensures Apply(f, [y] + ys) == [f(y)] + Apply(f, ys)
  {
  }

  /** Applying `f` to a rearrangement gives a rearrangement of the results. */
  lemma {:induction false} ApplyPermute<A, B>(f: A -> B, xs: seq<A>, ys: seq<A>)
    requires multiset(xs) == multiset(ys)
    ensures multiset(Apply(f, xs)) == multiset(Apply(f, ys))
    decreases |xs|
  {
    if |xs| == 0 {
      assert |ys| == |multiset(ys)| == 0;
    } else {
      assert xs[0] in multiset(ys);
      var k :| 0 <= k < |ys| && ys[k] == xs[0];
      RemoveAt(xs, ys, k);
      ApplyPermute(f, xs[1..], ys[..k] + ys[k + 1..]);
      ApplyRemove(f, ys, k);
      assert Apply(f, xs) == [f(xs[0])] + Apply(f, xs[1..]);
    }
  }

  lemma ApplyRemove<A, B>(f: A -> B, ys: seq<A>, k: int)
    requires 0 <= k < |ys|
    ensures Apply(f, ys) == Apply(f, ys[..k]) + [f(ys[k])] + Apply(f, ys[k + 1..])
    ensures Apply(f, ys[..k] + ys[k + 1..]) == Apply(f, ys[..k]) + Apply(f, ys[k + 1..])
  {
  }

  /** Rust's `Vec::dedup`: drops every element equal to its predecessor. */
  function Dedup<T(==,!new)>(xs: seq<T>): (r: seq<T>)
    ensures |xs| > 0 ==> |r| > 0 && r[0] == xs[0]
    ensures forall i :: 0 <= i < |r| - 1 ==> r[i] != r[i + 1]
    ensures forall x :: x in r <==> x in xs
    ensures |r| <= |xs|
  {
    if |xs| <= 1 then xs
    else if xs[0] == xs[1] then Dedup(xs[1..])
    else [xs[0]] + Dedup(xs[1..])
  }

  /** `dedup` removes only consecutive repeats: appending an element adds
      it to the result unless it repeats the last element of the input.
      Together with `Dedup([]) == []` this determines `Dedup` entirely. */
  lemma {:induction false} DedupSnoc<T(!new)>(xs: seq<T>, a: T)
    ensures Dedup(xs + [a]) == Dedup(xs) + (if |xs| > 0 && xs[|xs| - 1] == a then [] else [a])
    decreases |xs|
  {
    if |xs| == 0 {
      assert xs + [a] == [a];
    } else if |xs| == 1 {
      assert xs + [a] == [xs[0], a];
      assert [xs[0], a][1..] == [a];
    } else {
      assert (xs + [a])[1..] == xs[1..] + [a];
      DedupSnoc(xs[1..], a);
    }
  }

  /** De-duplicating keeps a sorted sequence sorted. */
  lemma {:induction false} DedupSorted<T(!new)>(xs: seq<T>, le: (T, T) -> bool)
    requires Sorted(xs, le)
    ensures Sorted(Dedup(xs), le)
  {
    if |xs| > 1 {
      DedupSorted(xs[1..], le);
      var rest := Dedup(xs[1..]);
      if xs[0] != xs[1] {
        forall j | 0 <= j < |rest| ensures le(xs[0], rest[j]) {
          assert rest[j] in xs[1..];
        }
      }
    }
  }

  /** A sorted sequence under a total order, once de-duplicated, holds every
      element exactly once. */
  lemma DedupSortedDistinct<T(!new)>(xs: seq<T>, le: (T, T) -> bool)
    requires TotalOrder(le)
    requires Sorted(xs, le)
    ensures forall i, j :: 0 <= i < j < |Dedup(xs)| ==> Dedup(xs)[i] != Dedup(xs)[j]
  {
    DedupSorted(xs, le);
    var r := Dedup(xs);
    forall i, j | 0 <= i < j < |r| ensures r[i] != r[j] {
      if j > i + 1 {
        assert le(r[i], r[i + 1]) && le(r[i + 1], r[j]);
      }
    }
  }
}

=== FILE: text.dfy ===
/** String surgery on `seq<char>`: splitting, joining, ASCII lower-casing,
    decimal rendering and the byte-wise lexicographic order of Rust strings. */
module Text {
  import opened Sorting

  /** Rust's `str::split(c)`: the pieces between the occurrences of `c`.
      There is always at least one piece, and the pieces joined back with `c`
      give the input. The first piece is the text before the first `c`, or
      the whole string when it has none. */
  function Split(s: string, c: char): (r: seq<string>)
    ensures |r| == Count(s, c) + 1
    ensures forall k :: 0 <= k < |r| ==> c !in r[k]
  {
    if |s| == 0 then [""]
    else
      var rest := Split(s[1..], c);
      if s[0] == c then [""] + rest
      else [[s[0]] + rest[0]] + rest[1..]
  }

  /** Joining the pieces back with the separator gives the input. */
  lemma {:induction false} JoinSplit(s: string, c: char)
    ensures Join(Split(s, c), c) == s
  {
    if |s| > 0 {
      JoinSplit(s[1..], c);
      var rest := Split(s[1..], c);
      if s[0] != c && |rest| > 1 {
        assert Join(rest, c) == rest[0] + [c] + Join(rest[1..], c);
        assert ([[s[0]] + rest[0]] + rest[1..])[1..] == rest[1..];
      }
    }
  }

  /** The first piece is the text before the first separator, or everything
      when there is none. */
  lemma {:induction false} SplitFirstPiece(s: string, c: char)
    ensures Split(s, c)[0] <= s
    ensures |Split(s, c)[0]| < |s| ==> s[|Split(s, c)[0]|] == c
  {
    if |s| > 0 {
      SplitFirstPiece(s[1..], c);
    }
  }

  /** Number of occurrences of `c` in `s`. */
  function Count(s: string, c: char): nat {
    if |s| == 0 then 0 else (if s[0] == c then 1 else 0) + Count(s[1..], c)
  }

  /** The pieces separated by single `c`s. */
  function Join(parts: seq<string>, c: char): string
    requires |parts| >= 1
  {
    if |parts| == 1 then parts[0] else parts[0] + [c] + Join(parts[1..], c)
  }

  /** Splitting undoes joining when no piece contains the separator. */
  lemma {:induction false} SplitJoin(parts: seq<string>, c: char)
    requires |parts| >= 1
    requires forall k :: 0 <= k < |parts| ==> c !in parts[k]
    ensures Split(Join(parts, c), c) == parts
  {
    if |parts| == 1 {
      NoSeparatorSplit(parts[0], c);
    } else {
      SplitJoin(parts[1..], c);
      SplitAfterPiece(parts[0], c, Join(parts[1..], c));
    }
  }

  lemma {:induction false} NoSeparatorSplit(s: string, c: char)
    requires c !in s
    ensures Split(s, c) == [s]
  {
    if |s| > 0 {
      NoSeparatorSplit(s[1..], c);
      assert s[0] in s;
      assert [s[0]] + s[1..] == s;
    }
  }

  /** A piece followed by the separator becomes the first piece. */
  lemma {:induction false} SplitAfterPiece(p: string, c: char, t: string)
    requires c !in p
    ensures Split(p + [c] + t, c) == [p] + Split(t, c)
  {
    if |p| == 0 {
      assert p + [c] + t == [c] + t;
      assert ([c] + t)[1..] == t;
    } else {
      assert (p + [c] + t)[1..] == p[1..] + [c] + t;
      SplitAfterPiece(p[1..], c, t);
      assert [p[0]] + p[1..] == p;
    }
  }

  /** Rust's `char::to_lowercase` restricted to ASCII letters. */
  function LowerChar(ch: char): char {
    if 'A' <= ch <= 'Z' then (ch as int + 32) as char else ch
  }

  /** `str::to_lowercase`, on the ASCII range. */
  function Lower(s: string): (r: string)
    ensures |r| == |s|
    ensures forall i :: 0 <= i < |s| ==> !('A' <= r[i] <= 'Z')
    ensures forall i :: 0 <= i < |s| ==> (r[i] == s[i] || 'A' <= s[i] <= 'Z')
    ensures forall i :: 0 <= i < |s| && 'A' <= s[i] <= 'Z' ==> r[i] as int == s[i] as int + 32
  {
    seq(|s|, i requires 0 <= i < |s| => LowerChar(s[i]))
  }

  lemma LowerIdempotent(s: string)
    ensures Lower(Lower(s)) == Lower(s)
  {
  }

  predicate IsDigit(ch: char) { '0' <= ch <= '9' }

  predicate AllDigits(s: string) { forall i :: 0 <= i < |s| ==> IsDigit(s[i]) }

  function DigitChar(d: nat): (ch: char)
    requires d < 10
    ensures IsDigit(ch) && ch as int - '0' as int == d
  {
    (d + '0' as int) as char
  }

  /** Rust's `{}` formatting of an unsigned integer: canonical decimal digits. */
  function NatToString(n: nat): (r: string)
    ensures |r| >= 1 && AllDigits(r)
    ensures r[0] == '0' ==> r == "0"
  {
    if n < 10 then [DigitChar(n)] else NatToString(n / 10) + [DigitChar(n % 10)]
  }

  /** Decimal value of a string of digits: the inverse of `NatToString`. */
  function ParseNat(s: string): nat
    requires AllDigits(s)
  {
    if |s| == 0 then 0 else ParseNat(s[..|s| - 1]) * 10 + (s[|s| - 1] as int - '0' as int)
  }

  lemma {:induction false} ParseNatToString(n: nat)
    ensures ParseNat(NatToString(n)) == n
  {
    if n >= 10 {
      ParseNatToString(n / 10);
      var s := NatToString(n);
      assert s[..|s| - 1] == NatToString(n / 10);
    }
  }

  /** Rendering distinct numbers gives distinct strings. */
  lemma NatToStringInjective(a: nat, b: nat)
    requires NatToString(a) == NatToString(b)
    ensures a == b
  {
    ParseNatToString(a);
    ParseNatToString(b);
  }

  /** Rust's `Ord` on strings: lexicographic on UTF-8 bytes, which is the
      lexicographic order of the code points. */
  predicate LexLe(a: string, b: string) {
    |a| == 0 || (|b| > 0 && (a[0] < b[0] || (a[0] == b[0] && LexLe(a[1..], b[1..]))))
  }

  lemma {:induction false} LexTotal(a: string, b: string)
    ensures LexLe(a, b) || LexLe(b, a)
  {
    if |a| > 0 && |b| > 0 && a[0] == b[0] {
      LexTotal(a[1..], b[1..]);
    }
  }

  lemma {:induction false} LexAntisymmetric(a: string, b: string)
    requires LexLe(a, b) && LexLe(b, a)
    ensures a == b
  {
    if |a| > 0 && |b| > 0 {
      LexAntisymmetric(a[1..], b[1..]);
      assert a == [a[0]] + a[1..] && b == [b[0]] + b[1..];
    }
  }

  lemma {:induction false} LexTransitive(a: string, b: string, d: string)
    requires LexLe(a, b) && LexLe(b, d)
    ensures LexLe(a, d)
  {
    if |a| > 0 && |b| > 0 && |d| > 0 && a[0] == b[0] && b[0] == d[0] {
      LexTransitive(a[1..], b[1..], d[1..]);
    }
  }

  /** The `String` order is a total order. */
  lemma LexOrder()
    ensures TotalOrder(LexLe)
  {
    forall a, b ensures LexLe(a, b) || LexLe(b, a) {
      LexTotal(a, b);
    }
    forall a, b, d | LexLe(a, b) && LexLe(b, d) ensures LexLe(a, d) {
      LexTransitive(a, b, d);
    }
    forall a, b | LexLe(a, b) && LexLe(b, a) ensures a == b {
      LexAntisymmetric(a, b);
    }
  }

  /** The order of `u32` values. */
  predicate NatLe(a: nat, b: nat) {
    a <= b
  }

  lemma NatOrder()
    ensures TotalOrder(NatLe)
  {
  }
}

=== FILE: versions.dfy ===
/** The two feature-name helpers: GPIO version to `io-` feature, and EEPROM
    size to `eeprom-` feature. */
module Versions {
  import opened Base
  import opened Text

  /** The fixed tail of every supported GPIO version; only version 1.0 of
      the GPIO peripheral is supported. */
  const GpioSuffix: string := "_gpio_v1_0"

  /** `gpio_version_to_feature`: the regex `^([^_]*)_gpio_v1_0$` matches the
      whole version, and the feature is `io-` followed by the captured group. */
  function GpioVersionToFeature(version: string): (r: Result<string>)
    ensures r.Ok? ==> exists p :: '_' !in p && version == p + GpioSuffix && r.value == "io-" + p
    ensures r.Err? ==> r.error == BadVersion(version)
    ensures r.Err? ==> forall p :: '_' !in p ==> version != p + GpioSuffix
  {
    var n := |version| - |GpioSuffix|;
    if 0 <= n && version[n..] == GpioSuffix && '_' !in version[..n] then
      assert version == version[..n] + GpioSuffix;
      Ok("io-" + version[..n])
    else
      assert forall p :: '_' !in p ==> version != p + GpioSuffix by {
        forall p | '_' !in p ensures version != p + GpioSuffix {
          WithSuffix(p);
        }
      }
      Err(BadVersion(version))
  }

  lemma WithSuffix(p: string)
    ensures (p + GpioSuffix)[|p|..] == GpioSuffix
    ensures (p + GpioSuffix)[..|p|] == p
  {
  }

  /** Every version of the form `<P>_gpio_v1_0` with no `_` in `P` maps to
      `io-<P>`. */
  lemma VersionFeature(p: string)
    requires '_' !in p
    ensures GpioVersionToFeature(p + GpioSuffix) == Ok("io-" + p)
  {
    var r := GpioVersionToFeature(p + GpioSuffix);
    if r.Ok? {
      var q :| '_' !in q && p + GpioSuffix == q + GpioSuffix && r.value == "io-" + q;
      assert p == (p + GpioSuffix)[..|p|] == (q + GpioSuffix)[..|q|] == q;
    }
  }

  /** The feature names the version: two versions with the same feature are
      the same version. */
  lemma VersionFeatureInjective(v: string, w: string)
    requires GpioVersionToFeature(v).Ok? && GpioVersionToFeature(w).Ok?
    requires GpioVersionToFeature(v) == GpioVersionToFeature(w)
    ensures v == w
  {
    var p :| '_' !in p && v == p + GpioSuffix && GpioVersionToFeature(v).value == "io-" + p;
    var q :| '_' !in q && w == q + GpioSuffix && GpioVersionToFeature(w).value == "io-" + q;
    assert p == ("io-" + p)[3..] == ("io-" + q)[3..] == q;
  }

  /** The accepted cases of the unit test: an L1 part with a package
      letter, and an F3 part. */
  lemma GpioVersionAccepted()
    ensures GpioVersionToFeature("STM32L152x8_gpio_v1_0") == Ok("io-STM32L152x8")
    ensures GpioVersionToFeature("STM32F333_gpio_v1_0") == Ok("io-STM32F333")
  {
    Accepts("STM32L152x8", "STM32L152x8_gpio_v1_0", "io-STM32L152x8");
    Accepts("STM32F333", "STM32F333_gpio_v1_0", "io-STM32F333");
  }

  lemma Accepts(p: string, v: string, f: string)
    requires '_' !in p && v == p + GpioSuffix && f == "io-" + p
    ensures GpioVersionToFeature(v) == Ok(f)
  {
    VersionFeature(p);
  }

  /** The rejected cases of the unit test: a later version, a misspelt tag,
      and an underscore inside the captured part. */
  lemma GpioVersionRejected()
    ensures GpioVersionToFeature("STM32F333_gpio_v1_1").Err?
    ensures GpioVersionToFeature("STM32F333_qqio_v1_0").Err?
    ensures GpioVersionToFeature("STM32_STM32F333_gpio_v1_0").Err?
  {
    var v := "STM32_STM32F333_gpio_v1_0";
    assert v[..|v| - |GpioSuffix|][5] == '_';
    var w := "STM32F333_gpio_v1_1";
    assert w[|w| - |GpioSuffix|..][9] != GpioSuffix[9];
    var x := "STM32F333_qqio_v1_0";
    assert x[|x| - |GpioSuffix|..][1] != GpioSuffix[1];
  }

  /** `eeprom_size_to_feature`: `eeprom-` followed by the size in decimal. */
  function EepromSizeToFeature(size: nat): (r: string)
    ensures |r| > 7 && r[..7] == "eeprom-"
    ensures AllDigits(r[7..]) && ParseNat(r[7..]) == size
    ensures r[7..] == "0" || r[7] != '0'
  {
    var digits := NatToString(size);
    ParseNatToString(size);
    assert ("eeprom-" + digits)[7..] == digits;
    assert ("eeprom-" + digits)[7] == digits[0];
    "eeprom-" + digits
  }

  /** Distinct sizes give distinct features. */
  lemma EepromFeatureInjective(a: nat, b: nat)
    requires EepromSizeToFeature(a) == EepromSizeToFeature(b)
    ensures a == b
  {
  }
}
